=== FILE: README.md ===
# Livraison: a Dafny model of the delivery app's core rules

Livraison is an Android food-delivery app with three roles: visitor, client and
driver. It keeps its orders in a remote document store. Most of the app is UI
and backend glue. This project pulls out the logic that can be stated exactly
and models it as pure functions over immutable datatypes:

- **Polyline decoding** (`polyline.dfy`). This is the integer part of the decoder for
  the Encoded Polyline Algorithm Format that the routing service returns: 5-bit
  groups offset by 63, continuation bit 0x20, zigzag signs, and running
  latitude/longitude accumulators. A model-side encoder gives the round trip.
- **Addresses** (`address.dfy`). The `Address` record and its hand-written field-map codec.
- **Orders and the order store** (`orders.dfy`, `order_repository.dfy`).
  - The order record and its five statuses.
  - The store as a sequence of documents, with the writes the app issues (create, accept, set status, set location).
  - The queries as filter, newest-first sort and per-document conversion. Documents that fail conversion are dropped.
  - The live listeners as sequences of snapshot events.
- **Client view model** (`main_view_model.dfy`). The case-insensitive catalogue search, the cart, order creation, the current-order query and the order history.
- **Authentication view model** (`auth_view_model.dfy`). The form state machine:
  - field edits and login/registration validation in their exact check order;
  - the answers from the identity provider and from the store;
  - the auth-state listener, address lookup and profile updates.
- **Driver view model and dashboard** (`driver_view_model.dfy`, `driver_dashboard.dfy`).
  - The available and assigned order lists, accept, and status updates.
  - The single location-update job slot, modelled as launched jobs plus a slot index.
  - The dashboard's next-status rule, card navigation and the accept guard.
- **Tracking screen** (`order_tracking.dfy`). Status to progress percentage, and the choice between "no order", the map and "Waiting for driver...".
- **Cart screen** (`cart_screen.dfy`). Default address selection and the checkout guards.
- **Router** (`router.dfy`). The start-route rule of the main activity and its duplicate in the routing screen.

How the outside world is represented:

- Store writes are synchronous pure updates.
- Answers from the identity provider, the document store and the geocoder are
  parameters of the functions that consume them (`Result` values).
- The email regular expression is the parameter `isEmail`.
- The fresh UUID of the address decoder is a parameter.
- Location permission is a boolean parameter.
- The clock is the `now` parameter of order creation.
- The key the store assigns to a new order is a parameter. It is required to be fresh, as the store's `add` guarantees.
- Money is integer cents, coordinates are scaled integers and progress is a percentage.

The model follows the code as written. In particular:

- `acceptOrder` writes driver and PREPARING with no check of the prior status
  or driver. `AcceptRegressesOnTheWay` shows that an order already on the way
  goes back to PREPARING.
- Marking an order DELIVERED only cancels the location job. Nothing in the
  store rejects a later location write. `NoLocationWriteAfterDelivered` states
  the guarantee the code does give: no job launched so far writes again.
- No code sets CANCELED. It appears only in the progress mapping.
- The dashboard's update handler sends every non-PREPARING order to DELIVERED.
  Only the button's visibility confines this to ON_THE_WAY orders.

## Model

| member | source | states |
|---|---|---|
| Polyline.ReadVarint | app/src/main/java/com/example/livraison/utils/PolylineUtils.kt:18-25 | one varint loop consumes at least one character and fails on an exhausted string |
| Polyline.ReadVarintSpec | app/src/main/java/com/example/livraison/utils/PolylineUtils.kt:21-25 | a varint ends at the first character whose chunk is below 0x20 (it fails if there is none); its value is the sum of each group's low 5 bits at bit offset 5k |
| Polyline.UnZigZag | app/src/main/java/com/example/livraison/utils/PolylineUtils.kt:26 | a decoded delta is negative exactly when the raw value is odd |
| Polyline.ZigZagBijection | app/src/main/java/com/example/livraison/utils/PolylineUtils.kt:26 | the zigzag sign decoding is a bijection between naturals and integers |
| Polyline.DecodeFrom | app/src/main/java/com/example/livraison/utils/PolylineUtils.kt:17-41 | the empty remainder gives no more points; every point consumes at least two characters |
| Polyline.Decode | app/src/main/java/com/example/livraison/utils/PolylineUtils.kt:9-14 | both accumulators start at 0: decoding succeeds exactly on well-formed input and yields one point per pair of varints (its points are characterized by DecodeFromFactors and RoundTrip) |
| Polyline.DecodeEmpty | app/src/main/java/com/example/livraison/utils/PolylineUtils.kt:12-17 | the empty string decodes to the empty list |
| Polyline.DecodeFromFactors | app/src/main/java/com/example/livraison/utils/PolylineUtils.kt:17-40 | decoding succeeds iff the string is a whole number of latitude/longitude varint pairs; the points are the running sums of the paired deltas; point count is half the varint count |
| Polyline.AccumulatePrefixSums | app/src/main/java/com/example/livraison/utils/PolylineUtils.kt:13-37 | the k-th accumulated point is the start plus the sums of the first k+1 latitude and longitude deltas, each coordinate separately |
| Polyline.DecodedPointIsPrefixSum | app/src/main/java/com/example/livraison/utils/PolylineUtils.kt:13-40 | the k-th decoded latitude (longitude) is the sum of the first k+1 latitude (longitude) deltas of the string |
| Polyline.VarintRoundTrip | app/src/main/java/com/example/livraison/utils/PolylineUtils.kt:21-25 | reading the format's encoding of any natural returns it and leaves what follows unread |
| Polyline.RoundTrip | app/src/main/java/com/example/livraison/utils/PolylineUtils.kt:9-42 | decoding the encoding of any point sequence returns that sequence |
| Polyline.PublishedExample | app/src/main/java/com/example/livraison/utils/PolylineUtils.kt:9-42 | "_p~iF~ps\|U_ulLnnqC_mqNvxq`@" decodes to (3850000,-12020000), (4070000,-12095000), (4325200,-12645300) |
| Addresses.DefaultAddress | app/src/main/java/com/example/livraison/model/Address.kt:10-19 | the default address has the fresh id, empty text fields and no coordinates |
| Addresses.ToMap | app/src/main/java/com/example/livraison/model/Address.kt:21-30 | the field map has exactly the keys id, name, street, city, postalCode, geoPoint |
| Addresses.FromMap | app/src/main/java/com/example/livraison/model/Address.kt:33-42 | a map without any of the six keys decodes to the default address |
| Addresses.FromMapToMap | app/src/main/java/com/example/livraison/model/Address.kt:21-42 | decoding an encoded address gives the address back |
| Addresses.FromMapDefaults | app/src/main/java/com/example/livraison/model/Address.kt:35-40 | a missing or mistyped text field decodes to "", id to the fresh id, geoPoint to null |
| Addresses.FromMapIgnoresExtraKeys | app/src/main/java/com/example/livraison/model/Address.kt:33-42 | maps that agree on the six keys decode alike |
| Orders.Convert | app/src/main/java/com/example/livraison/data/repository/OrderRepository.kt:63-71 | conversion succeeds only for convertible documents and overwrites the id with the document key, keeping every other field, driver location included |
| Orders.Apply | app/src/main/java/com/example/livraison/viewmodel/DriverViewModel.kt:91-102 | accept sets driver and PREPARING; a status write sets only the status; a location write sets only the location; contents never change |
| Orders.Update | app/src/main/java/com/example/livraison/viewmodel/DriverViewModel.kt:101-102 | an update changes exactly the documents with the key, and only by the write |
| Orders.UpdateMissing | app/src/main/java/com/example/livraison/viewmodel/DriverViewModel.kt:101-102 | an update of a key no document has leaves the store unchanged |
| Orders.Add | app/src/main/java/com/example/livraison/data/repository/OrderRepository.kt:18-21 | adding appends one convertible document under the new key and keeps the rest |
| OrderRepository.Where | app/src/main/java/com/example/livraison/data/repository/OrderRepository.kt:25-26 | the selection holds exactly the documents satisfying the filter |
| OrderRepository.ConvertAll | app/src/main/java/com/example/livraison/data/repository/OrderRepository.kt:33-49 | the result holds exactly the successful conversions; failures are dropped |
| OrderRepository.SortNewestFirst | app/src/main/java/com/example/livraison/data/repository/OrderRepository.kt:27 | the sort is a permutation in createdAt-descending order |
| OrderRepository.History | app/src/main/java/com/example/livraison/data/repository/OrderRepository.kt:25-49 | a history is newest first and holds exactly the converted documents matching the filter |
| OrderRepository.CreateOrder | app/src/main/java/com/example/livraison/data/repository/OrderRepository.kt:18-21 | given the store's fresh key, the returned id is that key, the new document is the only one under it, and the order reads back under it with every earlier document kept |
| OrderRepository.UserHistory | app/src/main/java/com/example/livraison/data/repository/OrderRepository.kt:52-74 | user history: only that user's orders, newest first, every convertible one of them |
| OrderRepository.DriverHistory | app/src/main/java/com/example/livraison/data/repository/OrderRepository.kt:83-105 | driver history: only that driver's orders, newest first, every convertible one of them |
| OrderRepository.Emissions | app/src/main/java/com/example/livraison/data/repository/OrderRepository.kt:52-105 | the two callback flows as the list of emissions of a listener; what it emits is stated by EmissionsSpec |
| OrderRepository.EmissionsSpec | app/src/main/java/com/example/livraison/data/repository/OrderRepository.kt:56-74 | each snapshot emits the complete current list; the first listen error emits nothing and ends the flow |
| OrderRepository.WhereAppend | app/src/main/java/com/example/livraison/data/repository/OrderRepository.kt:25-26 | filtering keeps relative order (distributes over concatenation) |
| OrderRepository.ConvertAllAppend | app/src/main/java/com/example/livraison/data/repository/OrderRepository.kt:63-71 | dropping failed conversions keeps the survivors in query order |
| OrderRepository.ConvertAllNewestFirst | app/src/main/java/com/example/livraison/data/repository/OrderRepository.kt:94-102 | dropping failed conversions keeps a newest-first list newest first |
| OrderRepository.SortedHeadIsNewest | app/src/main/java/com/example/livraison/viewmodel/MainViewModel.kt:124-134 | the first document of a sorted selection matches the filter and is no older than any matching document |
| MainViewModel.ContainsIgnoringCase | app/src/main/java/com/example/livraison/viewmodel/MainViewModel.kt:48 | true iff the query occurs somewhere in the name, letters compared without case |
| MainViewModel.FilterProducts | app/src/main/java/com/example/livraison/viewmodel/MainViewModel.kt:47-49 | keeps exactly the products whose name contains the query, every copy of each |
| MainViewModel.FilterCategoriesSpec | app/src/main/java/com/example/livraison/viewmodel/MainViewModel.kt:46-55 | every kept category is non-empty and a narrowed input category; every category with a match is kept |
| MainViewModel.FilteredCategories | app/src/main/java/com/example/livraison/viewmodel/MainViewModel.kt:41-56 | a blank query returns the list unchanged; otherwise only matching products, non-empty categories, every match kept |
| MainViewModel.FilterProductsAppend | app/src/main/java/com/example/livraison/viewmodel/MainViewModel.kt:47-49 | product filtering preserves product order |
| MainViewModel.FilterCategoriesAppend | app/src/main/java/com/example/livraison/viewmodel/MainViewModel.kt:46-55 | category filtering preserves category order |
| MainViewModel.OnSearchQueryChange | app/src/main/java/com/example/livraison/viewmodel/MainViewModel.kt:77-79 | only the query changes; a blank query shows the full catalogue |
| MainViewModel.LoadOrderHistory | app/src/main/java/com/example/livraison/viewmodel/MainViewModel.kt:150-156 | the history is the user flow's last emission, newest first and only the user's orders |
| MainViewModel.CartTotal | app/src/main/java/com/example/livraison/ui/screens/CartScreen.kt:101 | `cart.sumOf { it.price }`: a single product's price, never negative for non-negative prices, additive over splits (CartTotalConcat) |
| MainViewModel.CartTotalConcat | app/src/main/java/com/example/livraison/ui/screens/CartScreen.kt:101 | the cart sum is additive over any split of the cart |
| MainViewModel.AddToCart | app/src/main/java/com/example/livraison/viewmodel/MainViewModel.kt:87-89 | appends exactly the product at the end, total grows by its price, nothing else changes |
| MainViewModel.ClearCart | app/src/main/java/com/example/livraison/viewmodel/MainViewModel.kt:91-93 | the cart becomes empty, nothing else changes |
| MainViewModel.NewOrder | app/src/main/java/com/example/livraison/viewmodel/MainViewModel.kt:104-110 | a new order is CREATED with no driver or location, the cart's products, the total and the address |
| MainViewModel.CreateOrder | app/src/main/java/com/example/livraison/viewmodel/MainViewModel.kt:95-119 | success appends one convertible document under the fresh key holding the cart, total, address, user, creation time and CREATED with no driver or location, empties the cart, observes the user and changes nothing else in the state, and reports the key; failure changes nothing and reports the message or "Failed to create order" |
| MainViewModel.ObserveCurrentOrder | app/src/main/java/com/example/livraison/viewmodel/MainViewModel.kt:121-124 | the previous listener is replaced by one for the user |
| MainViewModel.CurrentOrderQuery | app/src/main/java/com/example/livraison/viewmodel/MainViewModel.kt:124-135 | null iff the user has no active order; otherwise the newest active order; a newest document failing conversion throws |
| MainViewModel.OnCurrentOrderSnapshot | app/src/main/java/com/example/livraison/viewmodel/MainViewModel.kt:129-136 | a listen error keeps the state; a snapshot replaces only the current order |
| AuthViewModel.Initial | app/src/main/java/com/example/livraison/viewmodel/AuthViewModel.kt:44-61 | the initial state holds the session user, role loading, no role, empty text fields, no error or profile/address message, no progress or success flag and no addresses; a signed-in session user has its addresses fetched, and no one else does |
| AuthViewModel.OnEmailChange | app/src/main/java/com/example/livraison/viewmodel/AuthViewModel.kt:129-131 | sets the email, clears the error, changes nothing else |
| AuthViewModel.OnPasswordChange | app/src/main/java/com/example/livraison/viewmodel/AuthViewModel.kt:133-135 | sets the password, clears the error, changes nothing else |
| AuthViewModel.OnConfirmPasswordChange | app/src/main/java/com/example/livraison/viewmodel/AuthViewModel.kt:137-139 | sets the confirmation, clears the error, changes nothing else |
| AuthViewModel.FieldEditsCommute | app/src/main/java/com/example/livraison/viewmodel/AuthViewModel.kt:129-139 | edits of different fields commute; the last edit of a field wins |
| AuthViewModel.DismissAddressError | app/src/main/java/com/example/livraison/viewmodel/AuthViewModel.kt:125-127 | clears the address error and nothing else |
| AuthViewModel.DismissProfileMessage | app/src/main/java/com/example/livraison/viewmodel/AuthViewModel.kt:245-247 | clears the profile message and nothing else |
| AuthViewModel.ResetRegistrationStatus | app/src/main/java/com/example/livraison/viewmodel/AuthViewModel.kt:212-214 | clears the registration flag and nothing else |
| AuthViewModel.Login | app/src/main/java/com/example/livraison/viewmodel/AuthViewModel.kt:141-152 | the email check precedes the empty-password check; a failure sets only its message and signs nothing in; success marks progress and clears the error |
| AuthViewModel.LoginFinished | app/src/main/java/com/example/livraison/viewmodel/AuthViewModel.kt:154-168 | progress ends; a failure shows its message or the default one |
| AuthViewModel.Register | app/src/main/java/com/example/livraison/viewmodel/AuthViewModel.kt:171-186 | email, then length at least 6, then confirmation; only the first failure's message, no account; otherwise progress and no error |
| AuthViewModel.RegisterFinished | app/src/main/java/com/example/livraison/viewmodel/AuthViewModel.kt:188-209 | a created user gets role "client"; success only when both writes succeed; a null user or an error sets a message |
| AuthViewModel.AddAddress | app/src/main/java/com/example/livraison/viewmodel/AuthViewModel.kt:91-122 | stores the geocoded address under its id; each lookup or write failure has its message; only a stored address refreshes the list |
| AuthViewModel.OnAuthStateChanged | app/src/main/java/com/example/livraison/viewmodel/AuthViewModel.kt:47-56 | signed out resets user, role, loading and addresses; signed in sets the user, loading, and fetches role and addresses |
| AuthViewModel.SignOutIdempotent | app/src/main/java/com/example/livraison/viewmodel/AuthViewModel.kt:53-55 | the sign-out reset applied twice equals once |
| AuthViewModel.OnRoleFetched | app/src/main/java/com/example/livraison/viewmodel/AuthViewModel.kt:68-78 | loading ends; the role is the stored one, or none on failure |
| AuthViewModel.OnAddressesFetched | app/src/main/java/com/example/livraison/viewmodel/AuthViewModel.kt:80-89 | success replaces the addresses; failure changes nothing |
| AuthViewModel.UpdateProfile | app/src/main/java/com/example/livraison/viewmodel/AuthViewModel.kt:216-221 | without a signed-in user only "No user is signed in." is set and nothing is requested |
| AuthViewModel.UpdateProfileFinished | app/src/main/java/com/example/livraison/viewmodel/AuthViewModel.kt:229-242 | success refreshes the user and confirms; failure keeps the user and shows the message |
| DriverViewModel.Initial | app/src/main/java/com/example/livraison/viewmodel/DriverViewModel.kt:26-35 | the driver state starts with an empty job slot, satisfying the job invariant |
| DriverViewModel.LiveJobs | app/src/main/java/com/example/livraison/viewmodel/DriverViewModel.kt:108-124 | the number of location jobs still running is zero exactly when every launched job is cancelled |
| DriverViewModel.AtMostOneLiveJob | app/src/main/java/com/example/livraison/viewmodel/DriverViewModel.kt:108-124 | under the slot invariant at most one location job runs, and it is the one in the slot |
| DriverViewModel.OnAvailableSnapshot | app/src/main/java/com/example/livraison/viewmodel/DriverViewModel.kt:39-57 | available orders are exactly the convertible CREATED ones; a listen error keeps the list |
| DriverViewModel.OnMyOrdersSnapshot | app/src/main/java/com/example/livraison/viewmodel/DriverViewModel.kt:60-76 | my orders are exactly the convertible ones of this driver that are PREPARING or ON_THE_WAY; a listen error keeps the list |
| DriverViewModel.LoadHistory | app/src/main/java/com/example/livraison/viewmodel/DriverViewModel.kt:79-89 | the driver history is the flow's last emission, newest first and only the driver's orders |
| DriverViewModel.AcceptOrder | app/src/main/java/com/example/livraison/viewmodel/DriverViewModel.kt:91-99 | sets driver and PREPARING on the order whatever its prior state, keeping its key, convertibility and every other field; other documents unchanged |
| DriverViewModel.AcceptRegressesOnTheWay | app/src/main/java/com/example/livraison/viewmodel/DriverViewModel.kt:91-99 | an accept on an order already ON_THE_WAY moves it back to PREPARING under the new driver |
| DriverViewModel.UpdateOrderStatus | app/src/main/java/com/example/livraison/viewmodel/DriverViewModel.kt:101-106 | only the order's status changes; DELIVERED empties the slot and leaves no job running; other statuses keep the slot |
| DriverViewModel.StartLocationUpdates | app/src/main/java/com/example/livraison/viewmodel/DriverViewModel.kt:108-119 | the previous job is cancelled before one for the order is launched into the slot |
| DriverViewModel.StopLocationUpdates | app/src/main/java/com/example/livraison/viewmodel/DriverViewModel.kt:121-124 | the slot is emptied and its job cancelled; no job runs afterwards |
| DriverViewModel.StopIdempotent | app/src/main/java/com/example/livraison/viewmodel/DriverViewModel.kt:121-124 | stopping twice equals stopping once |
| DriverViewModel.OnLocation | app/src/main/java/com/example/livraison/viewmodel/DriverViewModel.kt:113-131 | a live job writes a non-null location to its own order's driverLocation, and that is the only change; a cancelled job or a null location writes nothing |
| DriverViewModel.NoLocationWriteAfterDelivered | app/src/main/java/com/example/livraison/viewmodel/DriverViewModel.kt:101-124 | after DELIVERED no previously launched job writes a location |
| DriverViewModel.Step | app/src/main/java/com/example/livraison/viewmodel/DriverViewModel.kt:91-131 | every driver operation preserves the job-slot invariant |
| DriverViewModel.RunKeepsOneJob | app/src/main/java/com/example/livraison/viewmodel/DriverViewModel.kt:108-124 | after any sequence of driver operations at most one location job runs |
| DriverDashboard.UpdateButtonTarget | app/src/main/java/com/example/livraison/ui/screens/DriverDashboardScreen.kt:134-146 | a button exists only for PREPARING and ON_THE_WAY, and targets the next status of the chain |
| DriverDashboard.OnUpdateClick | app/src/main/java/com/example/livraison/ui/screens/DriverDashboardScreen.kt:74-85 | PREPARING with permission writes ON_THE_WAY and starts tracking; without permission only asks; anything else writes DELIVERED |
| DriverDashboard.ClickMovesForward | app/src/main/java/com/example/livraison/ui/screens/DriverDashboardScreen.kt:74-146 | a click on a shown button writes its target, which has strictly higher progress |
| DriverDashboard.ClickControlsTracking | app/src/main/java/com/example/livraison/ui/screens/DriverDashboardScreen.kt:75-84 | delivering empties the job slot; going on the way runs a job for that order |
| DriverDashboard.OnCardClick | app/src/main/java/com/example/livraison/ui/screens/DriverDashboardScreen.kt:86-91 | a card navigates, to "driver_map/" and the id, only when ON_THE_WAY |
| DriverDashboard.CardTitle | app/src/main/java/com/example/livraison/ui/screens/DriverDashboardScreen.kt:130 | the title is the id's first eight characters, or the whole id if it is shorter |
| DriverDashboard.OnAcceptClick | app/src/main/java/com/example/livraison/ui/screens/DriverDashboardScreen.kt:107-109 | nothing is written without a current user; otherwise the accept uses that user's uid |
| OrderTracking.Progress | app/src/main/java/com/example/livraison/ui/screens/OrderTrackingScreen.kt:97-104 | progress lies in [0,100], is 0 exactly for CANCELED and 100 exactly for DELIVERED |
| OrderTracking.ProgressIncreasesAlongChain | app/src/main/java/com/example/livraison/ui/screens/OrderTrackingScreen.kt:99-102 | progress rises strictly along CREATED, PREPARING, ON_THE_WAY, DELIVERED |
| OrderTracking.ProgressMinimumIsCanceled | app/src/main/java/com/example/livraison/ui/screens/OrderTrackingScreen.kt:98-104 | CANCELED has the strict minimum |
| OrderTracking.OrderHeader | app/src/main/java/com/example/livraison/ui/screens/OrderTrackingScreen.kt:53 | the header is "Order #", then the id's first six characters (all of a shorter id), then "..." |
| OrderTracking.View | app/src/main/java/com/example/livraison/ui/screens/OrderTrackingScreen.kt:46-90 | no current order shows the empty view; otherwise header, progress of its status and its driver location |
| OrderTracking.Message | app/src/main/java/com/example/livraison/ui/screens/OrderTrackingScreen.kt:46-90 | "No active order found." for no order; "Waiting for driver..." exactly when no location is known |
| OrderTracking.MapShownIffDriverLocated | app/src/main/java/com/example/livraison/ui/screens/OrderTrackingScreen.kt:58-90 | the map is shown iff the current order has a driver location |
| CartScreen.DefaultSelection | app/src/main/java/com/example/livraison/ui/screens/CartScreen.kt:47-51 | a selection is kept; otherwise the first saved address, or none for an empty list |
| CartScreen.DefaultSelectionStable | app/src/main/java/com/example/livraison/ui/screens/CartScreen.kt:47-51 | once an address is selected, later address lists do not change it |
| CartScreen.OnCheckout | app/src/main/java/com/example/livraison/ui/screens/CartScreen.kt:88-103 | a blank or absent uid is refused first, then a missing address; otherwise the order gets the uid, the address and the cart's sum |
| CartScreen.CheckoutBarShown | app/src/main/java/com/example/livraison/ui/screens/CartScreen.kt:57 | the checkout bar appears only for a non-empty cart; EnabledCheckoutNeedsOnlyLogin states what a checkout through it can yield |
| CartScreen.CheckoutEnabled | app/src/main/java/com/example/livraison/ui/screens/CartScreen.kt:110 | the button is enabled only with a selected address; EnabledCheckoutNeedsOnlyLogin shows the address notice is then unreachable |
| CartScreen.EnabledCheckoutNeedsOnlyLogin | app/src/main/java/com/example/livraison/ui/screens/CartScreen.kt:57-110 | through the shown and enabled button only the login message can appear |
| CartScreen.CheckoutPlacesCart | app/src/main/java/com/example/livraison/ui/screens/CartScreen.kt:99-103 | an accepted checkout stores exactly the cart, its total, the address and the uid, and empties the cart |
| Router.Destination | app/src/main/java/com/example/livraison/MainActivity.kt:37-43 | none while loading; login iff no user; driver_main iff "livreur"; client_main iff "client"; role_selection otherwise; always one of the four |
| Router.Route | app/src/main/java/com/example/livraison/MainActivity.kt:36-51 | loading keeps the stack; otherwise the destination ends up shown, the stack reduced to it unless it was already shown |
| Router.RouteIdempotent | app/src/main/java/com/example/livraison/MainActivity.kt:45-50 | routing twice on the same state equals routing once |
| Router.MainActivityRequest | app/src/main/java/com/example/livraison/MainActivity.kt:45-50 | navigation is issued iff the role is known and the destination is not already shown |
| Router.SignOutRoutesToLogin | app/src/main/java/com/example/livraison/MainActivity.kt:39 | after sign-out the app shows login whatever role was held |
| Router.SignInWaitsForRole | app/src/main/java/com/example/livraison/MainActivity.kt:37 | a sign-in navigates nowhere until the role answer arrives, and then not to login |
| Router.RoutingScreenDestination | app/src/main/java/com/example/livraison/ui/screens/RoutingScreen.kt:22-28 | none while loading; otherwise one of the four start routes |
| Router.RoutingScreenRequest | app/src/main/java/com/example/livraison/ui/screens/RoutingScreen.kt:21-33 | navigation is issued every time the role is known |
| Router.RoutersAgree | app/src/main/java/com/example/livraison/ui/screens/RoutingScreen.kt:21-33 | both routers pick the same destination; the routing screen also re-requests the route already shown |

## Left out

- Floating point. The polyline's division by 10^precision, the Double prices and sums, and the tracking bar's fraction are not modelled. The model uses scaled integers, cents and percentages.
- Orders.Convert: the repository's reflective `toObject` and the view models' `Order.fromMap` are modelled as one conversion (one `convertible` flag per document yielding one record), since the checked-in Order.kt that both read is stale.
- Polyline.ReadVarint: the source's `result` and `shift` are 32-bit `Int`s. Shift counts wrap modulo 32 and long varints overflow, but the model's integers are unbounded, so varints of seven or more groups may decode differently in the source. The running `lat`/`lng` sums are `Int`s too and wrap once they leave the 32-bit range, which coordinates within ±180·10^5 never do.
- Characters: Kotlin `Char` codes are UTF-16 code units, while Dafny `char` is a Unicode scalar. Characters outside the basic plane are not modelled.
- MainViewModel.ContainsIgnoringCase: case folding covers ASCII letters only, not Kotlin's full Unicode `ignoreCase` comparison.
- OrderRepository.SortNewestFirst: the store breaks `createdAt` ties by document key. The model keeps tied documents in store order.
- Listeners, coroutines and flows are not modelled as concurrent processes. Each listener is a function of one snapshot event, each flow a sequence of events, and the location job a cancelled flag.
- The Firebase SDKs, the Android geocoder, the fused location provider and the routing service are not modelled. Their answers enter as parameters.
- `observeOrderById` and `getOrderByIdFlow` are not part of this model.
- LocationUtils.kt, the network interfaces, the Compose layout and the navigation graphs (NavGraph.kt, ClientNavGraph.kt, DriverNavGraph.kt) are not part of this model. The unused NavGraph tests role "driver" instead of "livreur".
- The checked-in model/Order.kt and model/Product.kt are stale. The records here are built from the fields the code reads and writes.
- The catalogue contents of `getCategorizedMenu` are fixed data and are left out.
- The code has no accept guard, no rejection of writes to a delivered order, no status-transition validation and no cancel operation, so the model has none.
- `logout` and the listener removal in `onCleared` are single SDK calls with no state effect of their own. Sign-out reaches the model through OnAuthStateChanged.
- Snackbar and label texts that live in Android string resources are named by their resource ids, not by their texts.

=== FILE: address.dfy ===
/**
 The `Address` record of model/Address.kt and its hand-written Firestore field
 map codec. Field values of the map are Kotlin `Any?`; `Value` names the kinds
 the codec distinguishes. A fresh identifier (Kotlin draws a random UUID) is a
 parameter of the decoder.
 */
module Addresses {
  import opened Wrappers

  /** A Firestore GeoPoint; coordinates are kept as scaled integers. */
  datatype GeoPoint = GeoPoint(latitude: int, longitude: int)

  datatype Address = Address(
    id: string,
    name: string,
    street: string,
    city: string,
    postalCode: string,
    geoPoint: Option<GeoPoint>)

  /** A field value in a document map: null, a string, a GeoPoint, or anything else. */
  datatype Value = Null | Str(text: string) | Geo(point: GeoPoint) | Other(tag: int)

  /** The keys the codec writes and reads. */
  const FieldKeys: set<string> := {"id", "name", "street", "city", "postalCode", "geoPoint"}

  /** The no-argument constructor: every text field empty, no coordinates, a fresh id. */
  function DefaultAddress(freshId: string): (a: Address)
    ensures a.id == freshId && a.geoPoint.None?
    ensures a.name == a.street == a.city == a.postalCode == ""
  {
    Address(freshId, "", "", "", "", None)
  }

  /** `toMap()`: one entry per field; an absent GeoPoint is stored as null. */
  function ToMap(a: Address): (m: map<string, Value>)
    ensures m.Keys == FieldKeys
  {
    map[
      "id" := Str(a.id),
      "name" := Str(a.name),
      "street" := Str(a.street),
      "city" := Str(a.city),
      "postalCode" := Str(a.postalCode),
      "geoPoint" := match a.geoPoint case Some(g) => Geo(g) case None => Null
    ]
  }

  /** `map[key] as? String`: the string stored under `key`, if there is one. */
  function StringField(m: map<string, Value>, key: string): Option<string> {
    if key in m && m[key].Str? then Some(m[key].text) else None
  }

  /** `map[key] as? GeoPoint`. */
  function GeoField(m: map<string, Value>, key: string): Option<GeoPoint> {
    if key in m && m[key].Geo? then Some(m[key].point) else None
  }

  /** `fromMap(map)`: reads the six fields, each falling back to its default. */
  function FromMap(m: map<string, Value>, freshId: string): (a: Address)
    ensures m.Keys !! FieldKeys ==> a == DefaultAddress(freshId)
  {
    Address(
      StringField(m, "id").GetOr(freshId),
      StringField(m, "name").GetOr(""),
      StringField(m, "street").GetOr(""),
      StringField(m, "city").GetOr(""),
      StringField(m, "postalCode").GetOr(""),
      GeoField(m, "geoPoint"))
  }

  /** Decoding an encoded address gives it back, whatever fresh id is on hand. */
  lemma FromMapToMap(a: Address, freshId: string)
    ensures FromMap(ToMap(a), freshId) == a
  {
  }

  /** A missing or non-string text field decodes to "", a missing or non-string id to the fresh id. */
  lemma FromMapDefaults(m: map<string, Value>, freshId: string)
    ensures var a := FromMap(m, freshId);
      && (("id" !in m || !m["id"].Str?) ==> a.id == freshId)
      && (("name" !in m || !m["name"].Str?) ==> a.name == "")
      && (("street" !in m || !m["street"].Str?) ==> a.street == "")
      && (("city" !in m || !m["city"].Str?) ==> a.city == "")
      && (("postalCode" !in m || !m["postalCode"].Str?) ==> a.postalCode == "")
      && (("geoPoint" !in m || !m["geoPoint"].Geo?) ==> a.geoPoint.None?)
  {
  }

  /** Only the six field keys are read: two maps that agree on them decode alike. */
  lemma FromMapIgnoresExtraKeys(m: map<string, Value>, m': map<string, Value>, freshId: string)
    requires forall k :: k in FieldKeys ==> (k in m <==> k in m')
    requires forall k :: k in FieldKeys && k in m && k in m' ==> m[k] == m'[k]
    ensures FromMap(m, freshId) == FromMap(m', freshId)
  {
    assert forall k :: k in FieldKeys ==> StringField(m, k) == StringField(m', k) && GeoField(m, k) == GeoField(m', k);
  }
}

=== FILE: auth_view_model.dfy ===
/**
 The authentication view model (viewmodel/AuthViewModel.kt) as a state machine
 over its UI-state record. Calls into the identity provider and the document
 store are not made here: each operation returns the request it would issue,
 and a separate `...Finished` function takes the answer.

 The email pattern is a library regular expression that is not part of this
 model; it is the parameter `isEmail`.
 */
module AuthViewModel {
  import opened Wrappers
  import opened Addresses

  /** The signed-in account; only its uid is used. */
  datatype User = User(uid: string)

  datatype LoginUiState = LoginUiState(
    email: string,
    password: string,
    confirmPassword: string,
    errorMessage: Option<string>,
    profileUpdateMessage: Option<string>,
    addressErrorMessage: Option<string>,
    loginInProgress: bool,
    registrationInProgress: bool,
    registrationSuccess: bool,
    user: Option<User>,
    role: Option<string>,
    isRoleLoading: bool,
    addresses: seq<Address>)

  const InvalidEmail := "Invalid email format."
  const EmptyPassword := "Password cannot be empty."
  const ShortPassword := "Password must be at least 6 characters long."
  const PasswordMismatch := "Passwords do not match."
  const LoginFailed := "Login failed. Check your credentials."
  const RegistrationFailed := "Registration failed."
  const NullUserAfterRegistration := "User was null after registration."
  const NoUserSignedIn := "No user is signed in."
  const ProfileUpdated := "Profile updated successfully!"
  const ProfileUpdateFailed := "An error occurred."
  /** The role every self-registered account receives. */
  const ClientRole := "client"
  const MinPasswordLength := 6

  /** The view model's start: its first state, and the user whose addresses `init` fetches, if any. */
  datatype Start = Start(state: LoginUiState, fetchAddressesFor: Option<string>)

  /**
   Construction plus `init`: the defaults with the session's current user, and a
   fetch of that user's addresses when someone is already signed in.
   */
  function Initial(current: Option<User>): (r: Start)
    ensures r.state.user == current && r.state.isRoleLoading && r.state.role.None?
    ensures r.state.errorMessage.None? && r.state.profileUpdateMessage.None? && r.state.addressErrorMessage.None?
    ensures !r.state.loginInProgress && !r.state.registrationInProgress && !r.state.registrationSuccess
    ensures r.state.email == "" && r.state.password == "" && r.state.confirmPassword == ""
    ensures |r.state.addresses| == 0
    ensures r.fetchAddressesFor.Some? <==> current.Some?
    ensures current.Some? ==> r.fetchAddressesFor == Some(current.value.uid)
  {
    var st := LoginUiState("", "", "", None, None, None, false, false, false, current, None, true, []);
    match current
    case Some(u) => Start(st, Some(u.uid))
    case None => Start(st, None)
  }

  // ---------------------------------------------------------------------------
  // Field-change and dismiss handlers
  // ---------------------------------------------------------------------------

  function OnEmailChange(st: LoginUiState, email: string): (r: LoginUiState)
    ensures r.email == email && r.errorMessage.None?
    ensures r.(email := st.email, errorMessage := st.errorMessage) == st
  {
    st.(email := email, errorMessage := None)
  }

  function OnPasswordChange(st: LoginUiState, password: string): (r: LoginUiState)
    ensures r.password == password && r.errorMessage.None?
    ensures r.(password := st.password, errorMessage := st.errorMessage) == st
  {
    st.(password := password, errorMessage := None)
  }

  function OnConfirmPasswordChange(st: LoginUiState, password: string): (r: LoginUiState)
    ensures r.confirmPassword == password && r.errorMessage.None?
    ensures r.(confirmPassword := st.confirmPassword, errorMessage := st.errorMessage) == st
  {
    st.(confirmPassword := password, errorMessage := None)
  }

  function DismissAddressError(st: LoginUiState): (r: LoginUiState)
    ensures r.addressErrorMessage.None?
    ensures r.(addressErrorMessage := st.addressErrorMessage) == st
  {
    st.(addressErrorMessage := None)
  }

  function DismissProfileMessage(st: LoginUiState): (r: LoginUiState)
    ensures r.profileUpdateMessage.None?
    ensures r.(profileUpdateMessage := st.profileUpdateMessage) == st
  {
    st.(profileUpdateMessage := None)
  }

  function ResetRegistrationStatus(st: LoginUiState): (r: LoginUiState)
    ensures !r.registrationSuccess
    ensures r.(registrationSuccess := st.registrationSuccess) == st
  {
    st.(registrationSuccess := false)
  }

  /** Editing two different fields gives the same state in either order, and the last edit of a field wins. */
  lemma FieldEditsCommute(st: LoginUiState, e: string, e': string, p: string, c: string)
    ensures OnPasswordChange(OnEmailChange(st, e), p) == OnEmailChange(OnPasswordChange(st, p), e)
    ensures OnConfirmPasswordChange(OnEmailChange(st, e), c) == OnEmailChange(OnConfirmPasswordChange(st, c), e)
    ensures OnEmailChange(OnEmailChange(st, e), e') == OnEmailChange(st, e')
  {
  }

  // ---------------------------------------------------------------------------
  // Login
  // ---------------------------------------------------------------------------

  datatype Credentials = Credentials(email: string, password: string)

  /** The new UI state and the sign-in request issued, if any. */
  datatype LoginStep = LoginStep(state: LoginUiState, signIn: Option<Credentials>)

  /**
   `login()`: the email check comes first, then the empty-password check; the
   first failure sets its message and nothing else happens.
   */
  function Login(st: LoginUiState, isEmail: string -> bool): (r: LoginStep)
    ensures r.signIn.Some? <==> isEmail(st.email) && |st.password| > 0
    ensures !isEmail(st.email) ==> r.state.errorMessage == Some(InvalidEmail)
    ensures isEmail(st.email) && |st.password| == 0 ==> r.state.errorMessage == Some(EmptyPassword)
    ensures r.signIn.None? ==> r.state.(errorMessage := st.errorMessage) == st
    ensures r.signIn.Some? ==>
      && r.signIn.value == Credentials(st.email, st.password)
      && r.state.loginInProgress && r.state.errorMessage.None?
      && r.state.(loginInProgress := st.loginInProgress, errorMessage := st.errorMessage) == st
  {
    if !isEmail(st.email) then LoginStep(st.(errorMessage := Some(InvalidEmail)), None)
    else if |st.password| == 0 then LoginStep(st.(errorMessage := Some(EmptyPassword)), None)
    else LoginStep(st.(loginInProgress := true, errorMessage := None), Some(Credentials(st.email, st.password)))
  }

  /** The sign-in answer: progress ends; a failure shows its message or the default one. */
  function LoginFinished(st: LoginUiState, outcome: Result<()>): (r: LoginUiState)
    ensures !r.loginInProgress
    ensures outcome.Success? ==> r.errorMessage == st.errorMessage
    ensures outcome.Failure? ==> r.errorMessage == Some(outcome.message.GetOr(LoginFailed))
    ensures r.(loginInProgress := st.loginInProgress, errorMessage := st.errorMessage) == st
  {
    match outcome
    case Success(_) => st.(loginInProgress := false)
    case Failure(m) => st.(loginInProgress := false, errorMessage := Some(m.GetOr(LoginFailed)))
  }

  // ---------------------------------------------------------------------------
  // Registration
  // ---------------------------------------------------------------------------

  datatype RegisterStep = RegisterStep(state: LoginUiState, createAccount: Option<Credentials>)

  /** The message of the first registration check the form fails, if any. */
  function RegisterError(st: LoginUiState, isEmail: string -> bool): Option<string> {
    if !isEmail(st.email) then Some(InvalidEmail)
    else if |st.password| < MinPasswordLength then Some(ShortPassword)
    else if st.password != st.confirmPassword then Some(PasswordMismatch)
    else None
  }

  /**
   `register()`: email format, then password length, then confirmation; only the
   first failing check's message is set and no account is created.
   */
  function Register(st: LoginUiState, isEmail: string -> bool): (r: RegisterStep)
    ensures r.createAccount.Some? <==>
      isEmail(st.email) && |st.password| >= MinPasswordLength && st.password == st.confirmPassword
    ensures !isEmail(st.email) ==> r.state.errorMessage == Some(InvalidEmail)
    ensures isEmail(st.email) && |st.password| < MinPasswordLength ==> r.state.errorMessage == Some(ShortPassword)
    ensures isEmail(st.email) && |st.password| >= MinPasswordLength && st.password != st.confirmPassword ==>
      r.state.errorMessage == Some(PasswordMismatch)
    ensures r.createAccount.None? ==> r.state.(errorMessage := st.errorMessage) == st
    ensures r.createAccount.Some? ==>
      && r.createAccount.value == Credentials(st.email, st.password)
      && r.state.registrationInProgress && r.state.errorMessage.None?
      && r.state.(registrationInProgress := st.registrationInProgress, errorMessage := st.errorMessage) == st
  {
    match RegisterError(st, isEmail)
    case Some(msg) => RegisterStep(st.(errorMessage := Some(msg)), None)
    case None =>
      RegisterStep(st.(registrationInProgress := true, errorMessage := None), Some(Credentials(st.email, st.password)))
  }

  /** A write of the `role` field of a user's profile document. */
  datatype RoleWrite = RoleWrite(uid: string, role: string)

  datatype RegisterDone = RegisterDone(state: LoginUiState, roleWrite: Option<RoleWrite>)

  /**
   The answers to account creation and then to the profile write. A created
   account gets role "client"; success is flagged only when both succeed.
   */
  function RegisterFinished(st: LoginUiState, created: Result<Option<User>>, profileWrite: Result<()>): (r: RegisterDone)
    ensures !r.state.registrationInProgress
    ensures r.roleWrite.Some? <==> created.Success? && created.value.Some?
    ensures r.roleWrite.Some? ==> r.roleWrite.value == RoleWrite(created.value.value.uid, ClientRole)
    ensures r.roleWrite.Some? && profileWrite.Success? ==>
      r.state.registrationSuccess && r.state.errorMessage == st.errorMessage
    ensures !(r.roleWrite.Some? && profileWrite.Success?) ==>
      r.state.errorMessage.Some? && r.state.registrationSuccess == st.registrationSuccess
    ensures created.Success? && created.value.None? ==> r.state.errorMessage == Some(NullUserAfterRegistration)
    ensures r.state.(registrationInProgress := st.registrationInProgress,
                     registrationSuccess := st.registrationSuccess,
                     errorMessage := st.errorMessage) == st
  {
    match created
    case Failure(m) =>
      RegisterDone(st.(registrationInProgress := false, errorMessage := Some(m.GetOr(RegistrationFailed))), None)
    case Success(None) =>
      RegisterDone(st.(registrationInProgress := false, errorMessage := Some(NullUserAfterRegistration)), None)
    case Success(Some(u)) =>
      var w := Some(RoleWrite(u.uid, ClientRole));
      match profileWrite
      case Success(_) => RegisterDone(st.(registrationInProgress := false, registrationSuccess := true), w)
      case Failure(m) =>
        RegisterDone(st.(registrationInProgress := false, errorMessage := Some(m.GetOr(RegistrationFailed))), w)
  }

  // ---------------------------------------------------------------------------
  // Session: auth-state listener, role and address fetches, profile update
  // ---------------------------------------------------------------------------

  /** The new state and, when signed in, the uid whose role and addresses are then fetched. */
  datatype AuthStep = AuthStep(state: LoginUiState, fetchFor: Option<string>)

  /** What the geocoder answers for an address: a location, no match, or an exception. */
  datatype Lookup = Found(point: GeoPoint) | NotFound | NetworkError | LookupFailed

  /** The new state, the address document written (if any), and whether the list is then re-fetched. */
  datatype AddressStep = AddressStep(state: LoginUiState, written: Option<Address>, refresh: bool)

  const AddressNotFound := "Address not found. Please check spelling."
  const AddressNetworkError := "Network error during address lookup."
  const AddressNotSaved := "Could not save address."

  /**
   `addAddress`: clears the previous address error, geocodes the address, and
   stores it with its coordinates under its own id. A failed lookup or write sets
   the address error; only a stored address triggers a refresh of the list.
   */
  function AddAddress(st: LoginUiState, address: Address, lookup: Lookup, save: Result<()>): (r: AddressStep)
    ensures r.written.Some? <==> lookup.Found?
    ensures r.written.Some? ==> r.written.value == address.(geoPoint := Some(lookup.point))
    ensures r.refresh <==> lookup.Found? && save.Success?
    ensures r.refresh <==> r.state.addressErrorMessage.None?
    ensures lookup.NotFound? ==> r.state.addressErrorMessage == Some(AddressNotFound)
    ensures lookup.NetworkError? ==> r.state.addressErrorMessage == Some(AddressNetworkError)
    ensures lookup.LookupFailed? || (lookup.Found? && save.Failure?) ==>
      r.state.addressErrorMessage == Some(AddressNotSaved)
    ensures r.state.(addressErrorMessage := st.addressErrorMessage) == st
  {
    var cleared := st.(addressErrorMessage := None);
    match lookup
    case NotFound => AddressStep(cleared.(addressErrorMessage := Some(AddressNotFound)), None, false)
    case NetworkError => AddressStep(cleared.(addressErrorMessage := Some(AddressNetworkError)), None, false)
    case LookupFailed => AddressStep(cleared.(addressErrorMessage := Some(AddressNotSaved)), None, false)
    case Found(g) =>
      var a := address.(geoPoint := Some(g));
      if save.Success? then AddressStep(cleared, Some(a), true)
      else AddressStep(cleared.(addressErrorMessage := Some(AddressNotSaved)), Some(a), false)
  }

  /** The auth-state listener. */
  function OnAuthStateChanged(st: LoginUiState, current: Option<User>): (r: AuthStep)
    ensures r.state.user == current
    ensures current.Some? ==> r.state.isRoleLoading && r.fetchFor == Some(current.value.uid)
    ensures current.Some? ==> r.state.(user := st.user, isRoleLoading := st.isRoleLoading) == st
    ensures current.None? ==>
      && r.state.role.None? && !r.state.isRoleLoading && |r.state.addresses| == 0 && r.fetchFor.None?
      && r.state.(user := st.user, role := st.role, isRoleLoading := st.isRoleLoading, addresses := st.addresses) == st
  {
    match current
    case Some(u) => AuthStep(st.(user := current, isRoleLoading := true), Some(u.uid))
    case None => AuthStep(st.(user := None, role := None, isRoleLoading := false, addresses := []), None)
  }

  /** Signing out twice leaves the same state as signing out once. */
  lemma SignOutIdempotent(st: LoginUiState)
    ensures OnAuthStateChanged(OnAuthStateChanged(st, None).state, None).state == OnAuthStateChanged(st, None).state
  {
  }

  /** The role document's answer: the role it holds (possibly none), or none on failure; loading ends either way. */
  function OnRoleFetched(st: LoginUiState, fetched: Result<Option<string>>): (r: LoginUiState)
    ensures !r.isRoleLoading
    ensures r.role == (if fetched.Success? then fetched.value else None)
    ensures r.(role := st.role, isRoleLoading := st.isRoleLoading) == st
  {
    match fetched
    case Success(role) => st.(role := role, isRoleLoading := false)
    case Failure(_) => st.(role := None, isRoleLoading := false)
  }

  /** The address list's answer: replaces the list on success, changes nothing on failure. */
  function OnAddressesFetched(st: LoginUiState, fetched: Result<seq<Address>>): (r: LoginUiState)
    ensures fetched.Success? ==> r.addresses == fetched.value
    ensures fetched.Failure? ==> r == st
    ensures r.(addresses := st.addresses) == st
  {
    match fetched
    case Success(a) => st.(addresses := a)
    case Failure(_) => st
  }

  datatype ProfileStep = ProfileStep(state: LoginUiState, updateFor: Option<string>)

  /** `updateProfile(name)`: without a signed-in user only the message is set and nothing is requested. */
  function UpdateProfile(st: LoginUiState, current: Option<User>): (r: ProfileStep)
    ensures r.updateFor.Some? <==> current.Some?
    ensures current.Some? ==> r.updateFor == Some(current.value.uid) && r.state == st
    ensures current.None? ==> r.state == st.(profileUpdateMessage := Some(NoUserSignedIn))
  {
    match current
    case Some(u) => ProfileStep(st, Some(u.uid))
    case None => ProfileStep(st.(profileUpdateMessage := Some(NoUserSignedIn)), None)
  }

  /** The profile update's answer: refreshes the user on success; a message either way. */
  function UpdateProfileFinished(st: LoginUiState, refreshed: Option<User>, outcome: Result<()>): (r: LoginUiState)
    ensures outcome.Success? ==> r.user == refreshed && r.profileUpdateMessage == Some(ProfileUpdated)
    ensures outcome.Failure? ==>
      r.user == st.user && r.profileUpdateMessage == Some(outcome.message.GetOr(ProfileUpdateFailed))
    ensures r.(user := st.user, profileUpdateMessage := st.profileUpdateMessage) == st
  {
    match outcome
    case Success(_) => st.(user := refreshed, profileUpdateMessage := Some(ProfileUpdated))
    case Failure(m) => st.(profileUpdateMessage := Some(m.GetOr(ProfileUpdateFailed)))
  }
}

=== FILE: cart_screen.dfy ===
/**
 The checkout rules of the cart screen (ui/screens/CartScreen.kt): the
 default address selection, when the checkout bar and button are available,
 and what a checkout click does. Snackbar texts are string resources, named
 here by their resource ids.
 */
module CartScreen {
  import opened Wrappers
  import opened Addresses
  import opened Orders
  import opened AuthViewModel
  import opened MainViewModel

  /** The remembered selection once the address list is known: kept if set, otherwise the first address, if any. */
  function DefaultSelection(selected: Option<Address>, addresses: seq<Address>): (r: Option<Address>)
    ensures selected.Some? ==> r == selected
    ensures selected.None? ==> (r.Some? <==> |addresses| > 0)
    ensures selected.None? && r.Some? ==> r.value == addresses[0]
  {
    if selected.Some? then selected
    else if |addresses| > 0 then Some(addresses[0])
    else None
  }

  /** Once an address is selected, later address lists leave the selection as it is. */
  lemma DefaultSelectionStable(selected: Option<Address>, a1: seq<Address>, a2: seq<Address>)
    requires selected.Some? || |a1| > 0
    ensures DefaultSelection(DefaultSelection(selected, a1), a2) == DefaultSelection(selected, a1)
  {
  }

  /** The checkout bar (address picker, total, button) exists only for a non-empty cart. */
  predicate CheckoutBarShown(cart: seq<Product>) {
    |cart| > 0
  }

  /** The checkout button is enabled exactly when an address is selected. */
  predicate CheckoutEnabled(selected: Option<Address>) {
    selected.Some?
  }

  /** The snackbar messages of a refused checkout. */
  datatype Notice = LoginToOrder | SelectDeliveryAddress

  /** A checkout click: a snackbar, or the arguments of `createOrder`. */
  datatype Checkout =
    | Refused(notice: Notice)
    | PlaceOrder(userId: string, totalCents: int, address: Address)

  /** The checkout click handler: the user check comes first, then the address check. */
  function OnCheckout(user: Option<User>, cart: seq<Product>, selected: Option<Address>): (r: Checkout)
    ensures r.PlaceOrder? <==> user.Some? && !IsBlank(user.value.uid) && selected.Some?
    ensures user.None? || IsBlank(user.value.uid) ==> r == Refused(LoginToOrder)
    ensures user.Some? && !IsBlank(user.value.uid) && selected.None? ==> r == Refused(SelectDeliveryAddress)
    ensures r.PlaceOrder? ==>
      r.userId == user.value.uid && r.address == selected.value && r.totalCents == CartTotal(cart)
  {
    var uid := match user case Some(u) => u.uid case None => "";
    if IsBlank(uid) then Refused(LoginToOrder)
    else if selected.None? then Refused(SelectDeliveryAddress)
    else PlaceOrder(uid, CartTotal(cart), selected.value)
  }

  /**
   Through the enabled button a checkout is refused only for want of a signed-in
   user: the select-address message cannot appear.
   */
  lemma EnabledCheckoutNeedsOnlyLogin(user: Option<User>, cart: seq<Product>, selected: Option<Address>)
    requires CheckoutBarShown(cart) && CheckoutEnabled(selected)
    ensures OnCheckout(user, cart, selected).Refused? ==> OnCheckout(user, cart, selected).notice == LoginToOrder
    ensures OnCheckout(user, cart, selected).PlaceOrder? <==> user.Some? && !IsBlank(user.value.uid)
  {
  }

  /**
   A checkout that goes through places exactly the cart: the stored order holds
   the cart's products, its total, the selected address and the user's id, and
   the cart is then empty.
   */
  lemma CheckoutPlacesCart(st: MainState, store: Store, user: Option<User>, selected: Option<Address>, now: int, key: string)
    requires OnCheckout(user, st.cart, selected).PlaceOrder?
    requires !HasDoc(store, key)
    ensures var c := OnCheckout(user, st.cart, selected);
      var r := MainViewModel.CreateOrder(st, store, c.userId, c.totalCents, c.address, now, Success(key));
      var o := r.store[|store|].data;
      && o.products == st.cart && o.totalCents == CartTotal(st.cart)
      && o.address == selected && o.userId == user.value.uid && o.status == Created
      && |r.state.cart| == 0
  {
  }
}

=== FILE: driver_dashboard.dfy ===
/**
 The driver dashboard's decision rules (ui/screens/DriverDashboardScreen.kt):
 which button a card shows, what a click on it does, when a card opens the
 map, and when an accept is issued. Location permission is a parameter.
 */
module DriverDashboard {
  import opened Wrappers
  import opened Orders
  import opened OrderTracking
  import opened AuthViewModel
  import opened DriverViewModel

  /** The status the card's button moves the order to, if the card has a button. */
  function UpdateButtonTarget(o: Order): (t: Option<OrderStatus>)
    ensures t.Some? <==> o.status == Preparing || o.status == OnTheWay
    ensures t.Some? ==> NextInChain(o.status, t.value)
  {
    match o.status
    case Preparing => Some(OnTheWay)
    case OnTheWay => Some(Delivered)
    case _ => None
  }

  /** The result of a click: the new view-model state and store, and whether the permission dialog opened. */
  datatype Click = Click(effect: Effect, permissionRequested: bool)

  /**
   `onUpdateClick`: a PREPARING order goes ON_THE_WAY and starts location
   updates if permission is held, and otherwise only asks for permission; any
   other order is marked DELIVERED.
   */
  function OnUpdateClick(st: DriverState, store: Store, o: Order, hasPermission: bool): (r: Click)
    ensures r.permissionRequested <==> o.status == Preparing && !hasPermission
    ensures r.permissionRequested ==> r.effect == Effect(st, store)
    ensures o.status == Preparing && hasPermission ==>
      && r.effect.store == UpdateOrderStatus(st, store, o, OnTheWay).store
      && r.effect.state == StartLocationUpdates(st, o.id)
    ensures o.status != Preparing ==> r.effect == UpdateOrderStatus(st, store, o, Delivered)
    ensures Valid(st) ==> Valid(r.effect.state)
  {
    if o.status == Preparing then
      if hasPermission then
        var e := UpdateOrderStatus(st, store, o, OnTheWay);
        Click(Effect(StartLocationUpdates(e.state, o.id), e.store), false)
      else Click(Effect(st, store), true)
    else Click(UpdateOrderStatus(st, store, o, Delivered), false)
  }

  /**
   A click on a visible button writes the button's target status to the order
   (unless it is waiting for permission), and that status shows strictly more
   progress: the dashboard only moves PREPARING to ON_THE_WAY and ON_THE_WAY to DELIVERED.
   */
  lemma ClickMovesForward(st: DriverState, store: Store, o: Order, hasPermission: bool)
    requires UpdateButtonTarget(o).Some?
    ensures var r := OnUpdateClick(st, store, o, hasPermission);
      var t := UpdateButtonTarget(o).value;
      && Progress(o.status) < Progress(t)
      && (!r.permissionRequested ==>
            forall k :: 0 <= k < |store| && store[k].id == o.id ==> r.effect.store[k].data.status == t)
  {
    ProgressIncreasesAlongChain(o.status, UpdateButtonTarget(o).value);
  }

  /** Marking an order DELIVERED from the dashboard stops the location job; moving it ON_THE_WAY starts one for it. */
  lemma ClickControlsTracking(st: DriverState, store: Store, o: Order, hasPermission: bool)
    requires Valid(st)
    ensures var r := OnUpdateClick(st, store, o, hasPermission);
      && (o.status == OnTheWay ==> r.effect.state.slot.None?)
      && (o.status == Preparing && hasPermission ==>
            r.effect.state.slot.Some? && r.effect.state.jobs[r.effect.state.slot.value] == LocationJob(o.id, false))
  {
  }

  /** The card is clickable only when the order is ON_THE_WAY, and then opens that order's map. */
  function OnCardClick(o: Order): (route: Option<string>)
    ensures route.Some? <==> o.status == OnTheWay
    ensures route.Some? ==> route.value == "driver_map/" + o.id
  {
    if o.status == OnTheWay then Some("driver_map/" + o.id) else None
  }

  /** The card's title: the first eight characters of the order id. */
  function CardTitle(o: Order): (t: string)
    ensures |t| == if |o.id| < 8 then |o.id| else 8
    ensures t <= o.id
    ensures |o.id| <= 8 ==> t == o.id
  {
    Take(o.id, 8)
  }

  /** `onAcceptClick`: an accept is written only for a signed-in user, under that user's uid. */
  function OnAcceptClick(store: Store, current: Option<User>, o: Order): (r: Store)
    ensures current.None? ==> r == store
    ensures |r| == |store|
    ensures current.Some? ==> forall k :: 0 <= k < |r| && store[k].id == o.id ==>
      r[k].data.driverId == Some(current.value.uid) && r[k].data.status == Preparing
    ensures forall k :: 0 <= k < |r| && store[k].id != o.id ==> r[k] == store[k]
  {
    match current
    case None => store
    case Some(u) => AcceptOrder(store, o, u.uid)
  }
}

=== FILE: driver_view_model.dfy ===
/**
 The driver's view model (viewmodel/DriverViewModel.kt): the two live order
 lists, the history list, the order writes, and the location-update job.

 The job is modelled by what can be observed about it: every job ever
 launched is kept in `jobs` with a flag telling whether it was cancelled, and
 `slot` is the `locationUpdateJob` field, an index into `jobs`. A cancelled
 job collects no further locations.
 */
module DriverViewModel {
  import opened Wrappers
  import opened Addresses
  import opened Orders
  import opened OrderRepository

  /** A launched location-update coroutine and whether it has been cancelled. */
  datatype LocationJob = LocationJob(orderId: string, cancelled: bool)

  datatype DriverState = DriverState(
    available: seq<Order>,
    mine: seq<Order>,
    history: seq<Order>,
    jobs: seq<LocationJob>,
    slot: Option<nat>)

  /** The job in the slot is live, and no other job is. */
  predicate Valid(st: DriverState) {
    && (st.slot.Some? ==> st.slot.value < |st.jobs| && !st.jobs[st.slot.value].cancelled)
    && forall k :: 0 <= k < |st.jobs| && !st.jobs[k].cancelled ==> st.slot == Some(k)
  }

  /** The number of jobs not yet cancelled. */
  function LiveJobs(jobs: seq<LocationJob>): (n: nat)
    ensures n <= |jobs|
    ensures n == 0 <==> forall k :: 0 <= k < |jobs| ==> jobs[k].cancelled
    decreases |jobs|
  {
    if |jobs| == 0 then 0
    else LiveJobs(jobs[..|jobs| - 1]) + (if jobs[|jobs| - 1].cancelled then 0 else 1)
  }

  /** In a valid state at most one location job is running, and it is the one in the slot. */
  lemma {:induction false} AtMostOneLiveJob(st: DriverState, upTo: nat)
    requires Valid(st) && upTo <= |st.jobs|
    ensures LiveJobs(st.jobs[..upTo]) <= 1
    ensures st.slot.None? ==> LiveJobs(st.jobs[..upTo]) == 0
    ensures st.slot.Some? && st.slot.value < upTo ==> LiveJobs(st.jobs[..upTo]) == 1
    ensures st.slot.Some? && upTo <= st.slot.value ==> LiveJobs(st.jobs[..upTo]) == 0
    decreases upTo
  {
    if upTo > 0 {
      var pre := st.jobs[..upTo];
      assert pre[..upTo - 1] == st.jobs[..upTo - 1];
      AtMostOneLiveJob(st, upTo - 1);
      assert pre[upTo - 1] == st.jobs[upTo - 1];
    }
  }

  function Initial(): (st: DriverState)
    ensures Valid(st) && st.slot.None?
  {
    DriverState([], [], [], [], None)
  }

  // ---------------------------------------------------------------------------
  // Live lists
  // ---------------------------------------------------------------------------

  /** The orders awaiting a driver: stored status CREATED. */
  predicate IsAvailable(d: Doc) {
    d.data.status == Created
  }

  /** The driver's active orders: assigned to them and PREPARING or ON_THE_WAY. */
  predicate IsMine(d: Doc, driverId: string) {
    d.data.driverId == Some(driverId) && (d.data.status == Preparing || d.data.status == OnTheWay)
  }

  /** The available-orders listener: a snapshot replaces the list; an error keeps the previous one. */
  function OnAvailableSnapshot(st: DriverState, event: SnapshotEvent): (r: DriverState)
    ensures event.ListenFailed? ==> r == st
    ensures r.(available := st.available) == st
    ensures event.Snapshot? ==>
      forall o :: o in r.available <==> exists d :: d in event.docs && IsAvailable(d) && Convert(d) == Some(o)
    ensures event.Snapshot? ==> forall o :: o in r.available ==> o.status == Created
  {
    match event
    case ListenFailed => st
    case Snapshot(docs) => st.(available := ConvertAll(Where(docs, IsAvailable)))
  }

  /** The my-orders listener. */
  function OnMyOrdersSnapshot(st: DriverState, driverId: string, event: SnapshotEvent): (r: DriverState)
    ensures event.ListenFailed? ==> r == st
    ensures r.(mine := st.mine) == st
    ensures event.Snapshot? ==>
      forall o :: o in r.mine <==> exists d :: d in event.docs && IsMine(d, driverId) && Convert(d) == Some(o)
    ensures event.Snapshot? ==> forall o :: o in r.mine ==>
      o.driverId == Some(driverId) && (o.status == Preparing || o.status == OnTheWay)
  {
    match event
    case ListenFailed => st
    case Snapshot(docs) => st.(mine := ConvertAll(Where(docs, (d: Doc) => IsMine(d, driverId))))
  }

  /** `loadDriverOrderHistory`: the list is the flow's last emission, if it emitted at all. */
  function LoadHistory(st: DriverState, driverId: string, events: seq<SnapshotEvent>): (r: DriverState)
    ensures r.(history := st.history) == st
    ensures var e := Emissions(events, HistoryView(ByDriver(driverId)));
      r.history == if |e| == 0 then st.history else e[|e| - 1]
    ensures |events| > 0 && events[0].Snapshot? ==>
      OrdersNewestFirst(r.history) && forall o :: o in r.history ==> o.driverId == Some(driverId)
  {
    var e := Emissions(events, HistoryView(ByDriver(driverId)));
    if |e| == 0 then st
    else
      EmissionsSpec(events, HistoryView(ByDriver(driverId)));
      assert e[|e| - 1] == DriverHistory(events[|e| - 1].docs, driverId);
      st.(history := e[|e| - 1])
  }

  // ---------------------------------------------------------------------------
  // Writes and the location job
  // ---------------------------------------------------------------------------

  /** `acceptOrder`: one write of driver and PREPARING, whatever the order's current status or driver. */
  function AcceptOrder(store: Store, order: Order, driverId: string): (r: Store)
    ensures |r| == |store|
    ensures forall k :: 0 <= k < |r| && store[k].id == order.id ==>
      r[k] == store[k].(data := store[k].data.(driverId := Some(driverId), status := Preparing))
    ensures forall k :: 0 <= k < |r| && store[k].id != order.id ==> r[k] == store[k]
  {
    Update(store, order.id, AcceptBy(driverId))
  }

  /** `stopLocationUpdates`: cancels the job in the slot, if any, and empties the slot. */
  function StopLocationUpdates(st: DriverState): (r: DriverState)
    ensures r.slot.None?
    ensures |r.jobs| == |st.jobs|
    ensures forall k :: 0 <= k < |r.jobs| ==> r.jobs[k].orderId == st.jobs[k].orderId
    ensures forall k :: 0 <= k < |r.jobs| && st.jobs[k].cancelled ==> r.jobs[k].cancelled
    ensures Valid(st) ==> Valid(r) && forall k :: 0 <= k < |r.jobs| ==> r.jobs[k].cancelled
    ensures r.(jobs := st.jobs, slot := st.slot) == st
  {
    match st.slot
    case None => st
    case Some(k) =>
      if k < |st.jobs| then st.(jobs := st.jobs[k := st.jobs[k].(cancelled := true)], slot := None)
      else st.(slot := None)
  }

  /** Stopping twice is stopping once. */
  lemma StopIdempotent(st: DriverState)
    ensures StopLocationUpdates(StopLocationUpdates(st)) == StopLocationUpdates(st)
  {
  }

  /** `startLocationUpdates`: stops the previous job, then launches one for `orderId` into the slot. */
  function StartLocationUpdates(st: DriverState, orderId: string): (r: DriverState)
    ensures r.slot == Some(|st.jobs|) && |r.jobs| == |st.jobs| + 1
    ensures r.jobs[|st.jobs|] == LocationJob(orderId, false)
    ensures Valid(st) ==> Valid(r) && forall k :: 0 <= k < |st.jobs| ==> r.jobs[k].cancelled
    ensures r.(jobs := st.jobs, slot := st.slot) == st
  {
    var s := StopLocationUpdates(st);
    s.(jobs := s.jobs + [LocationJob(orderId, false)], slot := Some(|s.jobs|))
  }

  /** The outcome of an operation that both writes the store and changes the view model. */
  datatype Effect = Effect(state: DriverState, store: Store)

  /** `updateOrderStatus`: writes the status alone; DELIVERED also stops location updates. */
  function UpdateOrderStatus(st: DriverState, store: Store, order: Order, status: OrderStatus): (r: Effect)
    ensures |r.store| == |store|
    ensures forall k :: 0 <= k < |r.store| && store[k].id == order.id ==>
      r.store[k] == store[k].(data := store[k].data.(status := status))
    ensures forall k :: 0 <= k < |r.store| && store[k].id != order.id ==> r.store[k] == store[k]
    ensures status == Delivered ==> r.state.slot.None? && (Valid(st) ==> forall k :: 0 <= k < |r.state.jobs| ==> r.state.jobs[k].cancelled)
    ensures status != Delivered ==> r.state == st
    ensures r.state.(jobs := st.jobs, slot := st.slot) == st
  {
    var state := if status == Delivered then StopLocationUpdates(st) else st;
    Effect(state, Update(store, order.id, SetStatus(status)))
  }

  /**
   The location flow of job `job` yields `location`: a live job writes a
   non-null location to its order's `driverLocation`; anything else writes nothing.
   */
  function OnLocation(st: DriverState, store: Store, job: nat, location: Option<GeoPoint>): (r: Store)
    requires job < |st.jobs|
    ensures st.jobs[job].cancelled || location.None? ==> r == store
    ensures |r| == |store|
    ensures forall k :: 0 <= k < |r| ==>
      r[k].id == store[k].id && r[k].convertible == store[k].convertible
      && r[k].data.(driverLocation := store[k].data.driverLocation) == store[k].data
    ensures forall k :: 0 <= k < |r| && r[k].data != store[k].data ==>
      store[k].id == st.jobs[job].orderId && r[k].data.driverLocation == location
    ensures !st.jobs[job].cancelled && location.Some? ==>
      forall k :: 0 <= k < |r| && store[k].id == st.jobs[job].orderId ==> r[k].data.driverLocation == location
  {
    if st.jobs[job].cancelled || location.None? then store
    else Update(store, st.jobs[job].orderId, SetLocation(location.value))
  }

  /** Once an order is marked DELIVERED, no job launched so far writes a location any more. */
  lemma NoLocationWriteAfterDelivered(st: DriverState, store: Store, order: Order, later: Store, job: nat, location: Option<GeoPoint>)
    requires Valid(st) && job < |st.jobs|
    ensures OnLocation(UpdateOrderStatus(st, store, order, Delivered).state, later, job, location) == later
  {
  }

  /** Accept does not look at the status: an order already ON_THE_WAY goes back to PREPARING, under the new driver. */
  lemma AcceptRegressesOnTheWay(store: Store, k: nat, driverId: string)
    requires k < |store| && store[k].data.status == OnTheWay
    ensures var r := AcceptOrder(store, store[k].data.(id := store[k].id), driverId);
      r[k].data.status == Preparing && r[k].data.driverId == Some(driverId)
  {
  }

  // ---------------------------------------------------------------------------
  // Runs
  // ---------------------------------------------------------------------------

  /** The driver-side operations that touch the job slot or the store. */
  datatype Action =
    | Start(orderId: string)
    | Stop
    | SetStatusOf(order: Order, status: OrderStatus)
    | Accept(order: Order, driverId: string)
    | Report(job: nat, location: Option<GeoPoint>)

  function Step(e: Effect, a: Action): (r: Effect)
    ensures Valid(e.state) ==> Valid(r.state)
  {
    match a
    case Start(id) => Effect(StartLocationUpdates(e.state, id), e.store)
    case Stop => Effect(StopLocationUpdates(e.state), e.store)
    case SetStatusOf(o, s) => UpdateOrderStatus(e.state, e.store, o, s)
    case Accept(o, d) => Effect(e.state, AcceptOrder(e.store, o, d))
    case Report(j, loc) => if j < |e.state.jobs| then Effect(e.state, OnLocation(e.state, e.store, j, loc)) else e
  }

  function Run(e: Effect, actions: seq<Action>): Effect
    decreases |actions|
  {
    if |actions| == 0 then e else Run(Step(e, actions[0]), actions[1..])
  }

  /** Whatever the driver does, from the initial state at most one location job is ever running. */
  lemma {:induction false} RunKeepsOneJob(e: Effect, actions: seq<Action>)
    requires Valid(e.state)
    ensures Valid(Run(e, actions).state)
    ensures LiveJobs(Run(e, actions).state.jobs) <= 1
    decreases |actions|
  {
    if |actions| == 0 {
      AtMostOneLiveJob(e.state, |e.state.jobs|);
      assert e.state.jobs[..|e.state.jobs|] == e.state.jobs;
    } else {
      RunKeepsOneJob(Step(e, actions[0]), actions[1..]);
    }
  }
}

=== FILE: main_view_model.dfy ===
/**
 The client-side view model (viewmodel/MainViewModel.kt): the catalogue search
 filter, the cart, order creation and the live "current order" query.

 Case-insensitive matching is modelled for ASCII letters only; whitespace
 follows Kotlin's `Char.isWhitespace`.
 */
module MainViewModel {
  import opened Wrappers
  import opened Addresses
  import opened Orders
  import opened OrderRepository

  datatype Category = Category(name: string, products: seq<Product>)

  // ---------------------------------------------------------------------------
  // Text predicates
  // ---------------------------------------------------------------------------

  /** Kotlin's `Char.isWhitespace`: Java whitespace plus the Unicode space separators. */
  predicate IsWhitespace(c: char) {
    var n := c as int;
    || 0x09 <= n <= 0x0D || 0x1C <= n <= 0x20
    || n == 0xA0 || n == 0x1680 || 0x2000 <= n <= 0x200A
    || n == 0x2028 || n == 0x2029 || n == 0x202F || n == 0x205F || n == 0x3000
  }

  /** `isBlank()`: empty or whitespace only. */
  predicate IsBlank(s: string) {
    forall i :: 0 <= i < |s| ==> IsWhitespace(s[i])
  }

  function LowerAscii(c: char): char {
    if 'A' <= c <= 'Z' then (c as int + 32) as char else c
  }

  predicate SameLetterIgnoringCase(a: char, b: char) {
    LowerAscii(a) == LowerAscii(b)
  }

  /** `needle` occurs in `hay` at position `i`, ignoring case. */
  predicate MatchesAt(hay: string, needle: string, i: nat)
    requires i + |needle| <= |hay|
  {
    forall j :: 0 <= j < |needle| ==> SameLetterIgnoringCase(hay[i + j], needle[j])
  }

  /** The meaning of `hay.contains(needle, ignoreCase = true)`. */
  ghost predicate OccursIgnoringCase(hay: string, needle: string) {
    exists i: nat :: i + |needle| <= |hay| && MatchesAt(hay, needle, i)
  }

  /** The scan behind `contains`: tries every start position from `from` on. */
  function ContainsFrom(hay: string, needle: string, from: nat): (b: bool)
    ensures b <==> exists i: nat :: from <= i && i + |needle| <= |hay| && MatchesAt(hay, needle, i)
    decreases |hay| - from
  {
    if from + |needle| > |hay| then false
    else MatchesAt(hay, needle, from) || ContainsFrom(hay, needle, from + 1)
  }

  function ContainsIgnoringCase(hay: string, needle: string): (b: bool)
    ensures b <==> OccursIgnoringCase(hay, needle)
  {
    ContainsFrom(hay, needle, 0)
  }

  // ---------------------------------------------------------------------------
  // Catalogue search
  // ---------------------------------------------------------------------------

  predicate NameMatches(query: string, p: Product) {
    ContainsIgnoringCase(p.name, query)
  }

  /** `category.products.filter { it.name.contains(query, ignoreCase = true) }`. */
  function FilterProducts(query: string, ps: seq<Product>): (r: seq<Product>)
    ensures |r| <= |ps|
    ensures forall p :: p in r <==> p in ps && NameMatches(query, p)
    ensures forall p :: NameMatches(query, p) ==> multiset(r)[p] == multiset(ps)[p]
    decreases |ps|
  {
    if |ps| == 0 then []
    else
      assert ps == [ps[0]] + ps[1..];
      (if NameMatches(query, ps[0]) then [ps[0]] else []) + FilterProducts(query, ps[1..])
  }

  /** `category.copy(products = filteredProducts)`. */
  function Narrow(query: string, c: Category): Category {
    c.(products := FilterProducts(query, c.products))
  }

  /** `c` is some category of `cats` narrowed to the query. */
  ghost predicate NarrowedFrom(query: string, c: Category, cats: seq<Category>) {
    exists c0 :: c0 in cats && c == Narrow(query, c0)
  }

  /** Every category of `cats` with a matching product appears, narrowed, in `r`. */
  ghost predicate KeepsSurvivors(query: string, cats: seq<Category>, r: seq<Category>) {
    forall c0 :: c0 in cats && |FilterProducts(query, c0.products)| > 0 ==> Narrow(query, c0) in r
  }

  /** The `mapNotNull` over categories: narrow each one, drop those left empty. */
  function FilterCategories(query: string, cats: seq<Category>): seq<Category>
    decreases |cats|
  {
    if |cats| == 0 then []
    else
      var c := Narrow(query, cats[0]);
      (if |c.products| > 0 then [c] else []) + FilterCategories(query, cats[1..])
  }

  /**
   What category filtering keeps: every kept category is non-empty and some
   input category narrowed to the query, and every input category with a
   matching product is kept.
   */
  lemma {:induction false} FilterCategoriesSpec(query: string, cats: seq<Category>)
    ensures var r := FilterCategories(query, cats);
      && (forall c :: c in r ==> |c.products| > 0)
      && (forall c :: c in r ==> NarrowedFrom(query, c, cats))
      && KeepsSurvivors(query, cats, r)
    decreases |cats|
  {
    if |cats| > 0 {
      FilterCategoriesSpec(query, cats[1..]);
      var r := FilterCategories(query, cats);
      var n := Narrow(query, cats[0]);
      var head := if |n.products| > 0 then [n] else [];
      assert r == head + FilterCategories(query, cats[1..]);
      forall c | c in r ensures NarrowedFrom(query, c, cats) {
        if c !in head {
          assert c in FilterCategories(query, cats[1..]);
          var c0 :| c0 in cats[1..] && c == Narrow(query, c0);
          assert c0 in cats;
        }
      }
      forall c0 | c0 in cats && |FilterProducts(query, c0.products)| > 0 ensures Narrow(query, c0) in r {
        if c0 != cats[0] {
          assert c0 in cats[1..];
        }
      }
    }
  }

  /**
   The `filteredCategories` combination of query and catalogue: a blank query
   shows everything; otherwise exactly the matching products, in non-empty
   categories whose other fields are untouched.
   */
  function FilteredCategories(query: string, cats: seq<Category>): (r: seq<Category>)
    ensures IsBlank(query) ==> r == cats
    ensures !IsBlank(query) ==> forall c :: c in r ==> |c.products| > 0
    ensures !IsBlank(query) ==> forall c, p :: c in r && p in c.products ==> NameMatches(query, p)
    ensures !IsBlank(query) ==> forall c :: c in r ==> exists c0 :: c0 in cats && c.name == c0.name
    ensures !IsBlank(query) ==> forall c0, p :: c0 in cats && p in c0.products && NameMatches(query, p) ==>
      exists c :: c in r && c.name == c0.name && p in c.products
  {
    if IsBlank(query) then cats
    else
      var r := FilterCategories(query, cats);
      FilterCategoriesSpec(query, cats);
      assert forall c0, p :: c0 in cats && p in c0.products && NameMatches(query, p) ==>
        Narrow(query, c0) in r && p in Narrow(query, c0).products;
      r
  }

  /** Product filtering keeps the catalogue order: it distributes over concatenation. */
  lemma {:induction false} FilterProductsAppend(query: string, a: seq<Product>, b: seq<Product>)
    ensures FilterProducts(query, a + b) == FilterProducts(query, a) + FilterProducts(query, b)
    decreases |a|
  {
    if |a| > 0 {
      assert (a + b)[1..] == a[1..] + b;
      assert (a + b)[0] == a[0];
      FilterProductsAppend(query, a[1..], b);
    } else {
      assert a + b == b;
    }
  }

  /** One step of category filtering: the head category, narrowed if it survives, then the rest. */
  lemma FilterCategoriesCons(query: string, c: Category, rest: seq<Category>)
    ensures var n := Narrow(query, c);
      FilterCategories(query, [c] + rest) == (if |n.products| > 0 then [n] else []) + FilterCategories(query, rest)
  {
    assert ([c] + rest)[0] == c;
    assert ([c] + rest)[1..] == rest;
  }

  /** Category filtering keeps the catalogue order: it distributes over concatenation. */
  lemma {:induction false} FilterCategoriesAppend(query: string, a: seq<Category>, b: seq<Category>)
    ensures FilterCategories(query, a + b) == FilterCategories(query, a) + FilterCategories(query, b)
    decreases |a|
  {
    if |a| > 0 {
      var c, rest := a[0], a[1..];
      assert a == [c] + rest;
      assert a + b == [c] + (rest + b);
      var n := Narrow(query, c);
      var head := if |n.products| > 0 then [n] else [];
      FilterCategoriesCons(query, c, rest + b);
      FilterCategoriesCons(query, c, rest);
      FilterCategoriesAppend(query, rest, b);
      assert head + (FilterCategories(query, rest) + FilterCategories(query, b))
          == (head + FilterCategories(query, rest)) + FilterCategories(query, b);
    } else {
      assert a + b == b;
    }
  }

  // ---------------------------------------------------------------------------
  // View-model state: cart, order creation, current order
  // ---------------------------------------------------------------------------

  /** The view model's state; `orderListener` is the user whose current-order listener is registered. */
  datatype MainState = MainState(
    cart: seq<Product>,
    categories: seq<Category>,
    query: string,
    currentOrder: Option<Order>,
    orderListener: Option<string>,
    orderHistory: seq<Order>)

  /** Sum of the prices in the cart, in cents. */
  function CartTotal(cart: seq<Product>): (t: int)
    ensures (forall k :: 0 <= k < |cart| ==> cart[k].priceCents >= 0) ==> t >= 0
    ensures |cart| == 1 ==> t == cart[0].priceCents
  {
    if |cart| == 0 then 0 else CartTotal(cart[..|cart| - 1]) + cart[|cart| - 1].priceCents
  }

  /** `onSearchQueryChange(query)`: the catalogue shown is then the filter of the full list by the new query. */
  function OnSearchQueryChange(st: MainState, query: string): (r: MainState)
    ensures r.query == query
    ensures r.(query := st.query) == st
    ensures IsBlank(query) ==> FilteredCategories(r.query, r.categories) == st.categories
  {
    st.(query := query)
  }

  /** `loadOrderHistory(userId)`: the history is the user flow's last emission, if it emitted at all. */
  function LoadOrderHistory(st: MainState, userId: string, events: seq<SnapshotEvent>): (r: MainState)
    ensures r.(orderHistory := st.orderHistory) == st
    ensures var e := Emissions(events, HistoryView(ByUser(userId)));
      r.orderHistory == if |e| == 0 then st.orderHistory else e[|e| - 1]
    ensures |events| > 0 && events[0].Snapshot? ==>
      OrdersNewestFirst(r.orderHistory) && forall o :: o in r.orderHistory ==> o.userId == userId
  {
    var e := Emissions(events, HistoryView(ByUser(userId)));
    if |e| == 0 then st
    else
      EmissionsSpec(events, HistoryView(ByUser(userId)));
      assert e[|e| - 1] == UserHistory(events[|e| - 1].docs, userId);
      st.(orderHistory := e[|e| - 1])
  }

  /** The cart's total splits over any division of the cart into two parts. */
  lemma {:induction false} CartTotalConcat(a: seq<Product>, b: seq<Product>)
    ensures CartTotal(a + b) == CartTotal(a) + CartTotal(b)
    decreases |b|
  {
    if |b| > 0 {
      var ab := a + b;
      assert ab[..|ab| - 1] == a + b[..|b| - 1];
      CartTotalConcat(a, b[..|b| - 1]);
    } else {
      assert a + b == a;
    }
  }

  /** `addToCart(product)`: the product goes at the end; nothing else changes. */
  function AddToCart(st: MainState, p: Product): (r: MainState)
    ensures |r.cart| == |st.cart| + 1 && r.cart[..|st.cart|] == st.cart && r.cart[|st.cart|] == p
    ensures CartTotal(r.cart) == CartTotal(st.cart) + p.priceCents
    ensures r.(cart := st.cart) == st
  {
    var c := st.cart + [p];
    assert c[..|c| - 1] == st.cart;
    st.(cart := c)
  }

  /** `clearCart()`: the cart is emptied; nothing else changes. */
  function ClearCart(st: MainState): (r: MainState)
    ensures |r.cart| == 0 && CartTotal(r.cart) == 0
    ensures r.(cart := st.cart) == st
  {
    st.(cart := [])
  }

  /** The order `createOrder` builds from the cart. */
  function NewOrder(userId: string, cart: seq<Product>, totalCents: int, address: Address, now: int): (o: Order)
    ensures o.status == Created && o.driverId.None? && o.driverLocation.None?
    ensures o.userId == userId && o.products == cart && o.totalCents == totalCents && o.address == Some(address)
  {
    Order("", userId, None, cart, totalCents, Created, now, None, Some(address))
  }

  /** What the caller's callbacks receive. */
  datatype CreateOutcome = Succeeded(orderId: string) | Failed(message: string)

  datatype CreateStep = CreateStep(state: MainState, store: Store, outcome: CreateOutcome)

  /**
   `createOrder(...)`. `write` is the store's answer to the add: the key it
   assigned, which no document held before, or the exception it raised.
   */
  function CreateOrder(st: MainState, store: Store, userId: string, totalCents: int, address: Address,
                       now: int, write: Result<string>): (r: CreateStep)
    requires write.Success? ==> !HasDoc(store, write.value)
    ensures write.Success? ==>
      && r.outcome == Succeeded(write.value)
      && r.state == st.(cart := [], orderListener := Some(userId))
      && |r.store| == |store| + 1 && r.store[..|store|] == store
      && r.store[|store|].id == write.value
      && r.store[|store|].convertible
      && r.store[|store|].data.status == Created
      && r.store[|store|].data.products == st.cart
      && r.store[|store|].data.userId == userId
      && r.store[|store|].data.totalCents == totalCents
      && r.store[|store|].data.address == Some(address)
      && r.store[|store|].data.createdAt == now
      && r.store[|store|].data.driverId.None?
      && r.store[|store|].data.driverLocation.None?
    ensures write.Failure? ==> r.state == st && r.store == store
    ensures write.Failure? ==> r.outcome == Failed(write.message.GetOr("Failed to create order"))
  {
    match write
    case Success(key) =>
      var placed := OrderRepository.CreateOrder(store, key, NewOrder(userId, st.cart, totalCents, address, now));
      CreateStep(ObserveCurrentOrder(ClearCart(st), userId), placed.store, Succeeded(placed.id))
    case Failure(msg) =>
      CreateStep(st, store, Failed(msg.GetOr("Failed to create order")))
  }

  /** `observeCurrentOrder(userId)`: the previous listener is removed and one for `userId` registered. */
  function ObserveCurrentOrder(st: MainState, userId: string): (r: MainState)
    ensures r.orderListener == Some(userId)
    ensures r.(orderListener := st.orderListener) == st
  {
    st.(orderListener := Some(userId))
  }

  predicate IsActive(s: OrderStatus) {
    s == Created || s == Preparing || s == OnTheWay
  }

  predicate IsCurrentFor(userId: string, d: Doc) {
    d.data.userId == userId && IsActive(d.data.status)
  }

  /**
   The current-order query: the user's active orders, newest first, limit 1. The
   one document is converted outside any try, so a document that fails
   conversion makes the listener throw (Failure).
   */
  function CurrentOrderQuery(docs: seq<Doc>, userId: string): (r: Result<Option<Order>>)
    ensures r == Success(None) <==> forall d :: d in docs ==> !IsCurrentFor(userId, d)
    ensures r.Success? && r.value.Some? ==>
      var o := r.value.value;
      && o.userId == userId && IsActive(o.status)
      && (exists d :: d in docs && IsCurrentFor(userId, d) && Convert(d) == Some(o))
      && forall d :: d in docs && IsCurrentFor(userId, d) ==> d.data.createdAt <= o.createdAt
    ensures r.Failure? ==>
      exists d :: d in docs && IsCurrentFor(userId, d) && !d.convertible
        && forall d' :: d' in docs && IsCurrentFor(userId, d') ==> d'.data.createdAt <= d.data.createdAt
  {
    var matching := Where(docs, (d: Doc) => IsCurrentFor(userId, d));
    var sorted := SortNewestFirst(matching);
    if |sorted| == 0 then
      EmptySortMeansNoMatch(docs, (d: Doc) => IsCurrentFor(userId, d));
      Success(None)
    else
      var top := sorted[0];
      SortedHeadIsNewest(docs, (d: Doc) => IsCurrentFor(userId, d));
      match Convert(top)
      case Some(o) => Success(Some(o))
      case None => Failure(None)
  }

  /**
   The current-order listener receiving a snapshot for the registered user: a
   listen error leaves the state as it was; otherwise the current order is replaced.
   */
  function OnCurrentOrderSnapshot(st: MainState, event: SnapshotEvent): (r: Result<MainState>)
    requires st.orderListener.Some?
    ensures event.ListenFailed? ==> r == Success(st)
    ensures event.Snapshot? ==> (r.Success? <==> CurrentOrderQuery(event.docs, st.orderListener.value).Success?)
    ensures event.Snapshot? && r.Success? ==>
      && r.value.currentOrder == CurrentOrderQuery(event.docs, st.orderListener.value).value
      && r.value.(currentOrder := st.currentOrder) == st
  {
    match event
    case ListenFailed => Success(st)
    case Snapshot(docs) =>
      match CurrentOrderQuery(docs, st.orderListener.value)
      case Success(o) => Success(st.(currentOrder := o))
      case Failure(m) => Failure(m)
  }
}

=== FILE: order_repository.dfy ===
/**
 OrderRepository (data/repository/OrderRepository.kt): order creation and the
 history queries, plus the selection and conversion steps that the view models'
 own live queries share with it.

 A query is a filter on stored fields, optionally a newest-first sort by
 `createdAt`, then per-document conversion that drops documents failing it.
 The store breaks `createdAt` ties by document key; the model keeps tied
 documents in store order instead.
 */
module OrderRepository {
  import opened Wrappers
  import opened Orders

  // ---------------------------------------------------------------------------
  // Query building blocks
  // ---------------------------------------------------------------------------

  /** `whereEqualTo` / `whereIn`: the documents whose stored fields satisfy `p`, in store order. */
  function Where(docs: seq<Doc>, p: Doc -> bool): (r: seq<Doc>)
    ensures |r| <= |docs|
    ensures KeptBy(docs, p, r)
    decreases |docs|
  {
    if |docs| == 0 then []
    else (if p(docs[0]) then [docs[0]] else []) + Where(docs[1..], p)
  }

  /** `r` holds exactly the documents of `docs` that satisfy `p`. */
  ghost predicate KeptBy(docs: seq<Doc>, p: Doc -> bool, r: seq<Doc>) {
    forall d :: d in r <==> d in docs && p(d)
  }

  /** `r` holds exactly the orders that documents of `docs` convert to. */
  ghost predicate ConvertedFrom(docs: seq<Doc>, r: seq<Order>) {
    forall o :: o in r <==> exists d :: d in docs && Convert(d) == Some(o)
  }

  /** `r` holds exactly the orders that documents of `docs` satisfying `p` convert to. */
  ghost predicate SelectedFrom(docs: seq<Doc>, p: Doc -> bool, r: seq<Order>) {
    forall o :: o in r <==> exists d :: d in docs && p(d) && Convert(d) == Some(o)
  }

  /** `mapNotNull { convert }`: converted documents in query order; failed conversions are dropped. */
  function ConvertAll(docs: seq<Doc>): (r: seq<Order>)
    ensures |r| <= |docs|
    ensures ConvertedFrom(docs, r)
    decreases |docs|
  {
    if |docs| == 0 then [] else Converted(docs[0]) + ConvertAll(docs[1..])
  }

  /** One document's contribution to a conversion: its order, or nothing. */
  function Converted(d: Doc): (r: seq<Order>)
    ensures |r| <= 1
    ensures forall o :: o in r <==> Convert(d) == Some(o)
  {
    match Convert(d) case Some(o) => [o] case None => []
  }

  predicate NewestFirst(docs: seq<Doc>) {
    forall i, j :: 0 <= i < j < |docs| ==> docs[i].data.createdAt >= docs[j].data.createdAt
  }

  predicate OrdersNewestFirst(os: seq<Order>) {
    forall i, j :: 0 <= i < j < |os| ==> os[i].createdAt >= os[j].createdAt
  }

  /** No document of `docs` was created after `c`. */
  predicate NoneNewerThan(docs: seq<Doc>, c: int) {
    forall k :: 0 <= k < |docs| ==> docs[k].data.createdAt <= c
  }

  /** Bounds on creation time survive any permutation. */
  lemma NoneNewerThanPermutation(a: seq<Doc>, b: seq<Doc>, c: int)
    requires multiset(a) == multiset(b) && NoneNewerThan(a, c)
    ensures NoneNewerThan(b, c)
  {
    forall k | 0 <= k < |b| ensures b[k].data.createdAt <= c {
      assert b[k] in multiset(a);
      var j :| 0 <= j < |a| && a[j] == b[k];
    }
  }

  /** A document no older than every document of a newest-first list may go in front of it. */
  lemma ConsNewestFirst(x: Doc, t: seq<Doc>)
    requires NewestFirst(t) && NoneNewerThan(t, x.data.createdAt)
    ensures NewestFirst([x] + t)
  {
    var r := [x] + t;
    forall i, j | 0 <= i < j < |r| ensures r[i].data.createdAt >= r[j].data.createdAt {
      assert r[j] == t[j - 1];
      if i > 0 {
        assert r[i] == t[i - 1];
      }
    }
  }

  /** Places `d` before the first document that is not newer than it. */
  function InsertNewestFirst(d: Doc, s: seq<Doc>): (r: seq<Doc>)
    requires NewestFirst(s)
    ensures NewestFirst(r)
    ensures multiset(r) == multiset(s) + multiset{d}
    decreases |s|
  {
    if |s| == 0 then [d]
    else if d.data.createdAt >= s[0].data.createdAt then
      ConsNewestFirst(d, s);
      [d] + s
    else
      var rest := s[1..];
      assert s == [s[0]] + rest;
      assert NoneNewerThan(rest + [d], s[0].data.createdAt) by {
        forall k | 0 <= k < |rest + [d]| ensures (rest + [d])[k].data.createdAt <= s[0].data.createdAt {
          if k < |rest| {
            assert (rest + [d])[k] == s[k + 1];
          }
        }
      }
      var t := InsertNewestFirst(d, rest);
      NoneNewerThanPermutation(rest + [d], t, s[0].data.createdAt);
      ConsNewestFirst(s[0], t);
      [s[0]] + t
  }

  /** `orderBy("createdAt", DESCENDING)`: a newest-first permutation of the documents. */
  function SortNewestFirst(docs: seq<Doc>): (r: seq<Doc>)
    ensures NewestFirst(r)
    ensures multiset(r) == multiset(docs)
    decreases |docs|
  {
    if |docs| == 0 then []
    else
      assert docs == [docs[0]] + docs[1..];
      InsertNewestFirst(docs[0], SortNewestFirst(docs[1..]))
  }

  /** A history query: filter, sort newest first, convert. */
  function History(docs: seq<Doc>, p: Doc -> bool): (r: seq<Order>)
    ensures OrdersNewestFirst(r)
    ensures SelectedFrom(docs, p, r)
  {
    var sorted := SortNewestFirst(Where(docs, p));
    ConvertAllNewestFirst(sorted);
    assert forall d :: d in sorted <==> d in docs && p(d) by {
      forall d ensures d in sorted <==> d in multiset(Where(docs, p)) { }
    }
    ConvertAll(sorted)
  }

  // ---------------------------------------------------------------------------
  // The repository's operations
  // ---------------------------------------------------------------------------

  /** The outcome of `createOrder`: the new collection and the key the store assigned. */
  datatype Placed = Placed(store: Store, id: string)

  /**
   `createOrder(order)`: adds the order and returns the document key, under which
   it now reads back. The store picks a key that no document holds yet.
   */
  function CreateOrder(store: Store, key: string, o: Order): (r: Placed)
    requires !HasDoc(store, key)
    ensures r.id == key
    ensures forall k :: 0 <= k < |r.store| && r.store[k].id == r.id ==> k == |store|
    ensures |r.store| == |store| + 1 && r.store[..|store|] == store
    ensures HasDoc(r.store, r.id)
    ensures Convert(r.store[|store|]) == Some(o.(id := r.id))
  {
    var s := Add(store, key, o);
    assert s[|store|].id == key;
    Placed(s, key)
  }

  /** `whereEqualTo("userId", ...)`. */
  function ByUser(userId: string): Doc -> bool {
    (d: Doc) => d.data.userId == userId
  }

  /** `whereEqualTo("driverId", ...)`. */
  function ByDriver(driverId: string): Doc -> bool {
    (d: Doc) => d.data.driverId == Some(driverId)
  }

  /** `getOrdersByUser` and one snapshot of `getOrdersByUserFlow`: the user's orders, newest first. */
  function UserHistory(docs: seq<Doc>, userId: string): (r: seq<Order>)
    ensures OrdersNewestFirst(r)
    ensures forall o :: o in r ==> o.userId == userId
    ensures forall o :: o in r <==> exists d :: d in docs && d.data.userId == userId && Convert(d) == Some(o)
  {
    History(docs, ByUser(userId))
  }

  /** One snapshot of `getOrdersByDriverFlow`: the orders assigned to the driver, newest first. */
  function DriverHistory(docs: seq<Doc>, driverId: string): (r: seq<Order>)
    ensures OrdersNewestFirst(r)
    ensures forall o :: o in r ==> o.driverId == Some(driverId)
    ensures forall o :: o in r <==> exists d :: d in docs && d.data.driverId == Some(driverId) && Convert(d) == Some(o)
  {
    History(docs, ByDriver(driverId))
  }

  /** What a snapshot listener is called with: the query's full result, or an error. */
  datatype SnapshotEvent = Snapshot(docs: seq<Doc>) | ListenFailed

  /** The list a history flow emits for one snapshot. */
  function HistoryView(p: Doc -> bool): seq<Doc> -> seq<Order> {
    (docs: seq<Doc>) => History(docs, p)
  }

  /** The lists a flow emits for a sequence of listener calls, each snapshot mapped by `view`. */
  function Emissions(events: seq<SnapshotEvent>, view: seq<Doc> -> seq<Order>): seq<seq<Order>>
    decreases |events|
  {
    if |events| == 0 then []
    else
      match events[0]
      case ListenFailed => []
      case Snapshot(docs) => [view(docs)] + Emissions(events[1..], view)
  }

  /**
   Every snapshot emits the complete current list, in the order the snapshots
   arrive; the first error emits nothing and closes the flow.
   */
  lemma {:induction false} EmissionsSpec(events: seq<SnapshotEvent>, view: seq<Doc> -> seq<Order>)
    ensures var r := Emissions(events, view);
      && |r| <= |events|
      && (forall k :: 0 <= k < |r| ==> events[k].Snapshot? && r[k] == view(events[k].docs))
      && (|r| < |events| ==> events[|r|].ListenFailed?)
    decreases |events|
  {
    if |events| > 0 && events[0].Snapshot? {
      var tail := events[1..];
      EmissionsSpec(tail, view);
      var rest := Emissions(tail, view);
      var r := Emissions(events, view);
      assert r == [view(events[0].docs)] + rest;
      forall k | 1 <= k < |r| ensures events[k].Snapshot? && r[k] == view(events[k].docs) {
        assert r[k] == rest[k - 1] && events[k] == tail[k - 1];
      }
    }
  }

  /** An empty sorted selection means that no document satisfies the filter. */
  lemma EmptySortMeansNoMatch(docs: seq<Doc>, p: Doc -> bool)
    requires |SortNewestFirst(Where(docs, p))| == 0
    ensures forall d :: d in docs ==> !p(d)
  {
    assert |Where(docs, p)| == 0;
  }

  /** The head of a non-empty sorted selection is a selected document no older than any other. */
  lemma SortedHeadIsNewest(docs: seq<Doc>, p: Doc -> bool)
    requires |SortNewestFirst(Where(docs, p))| > 0
    ensures var top := SortNewestFirst(Where(docs, p))[0];
      && top in docs && p(top)
      && forall d :: d in docs && p(d) ==> d.data.createdAt <= top.data.createdAt
  {
    var m := Where(docs, p);
    var s := SortNewestFirst(m);
    assert s[0] in multiset(m);
    forall d | d in docs && p(d) ensures d.data.createdAt <= s[0].data.createdAt {
      assert d in multiset(s);
      var k :| 0 <= k < |s| && s[k] == d;
    }
  }

  // ---------------------------------------------------------------------------
  // Order preservation
  // ---------------------------------------------------------------------------

  lemma WhereCons(d: Doc, rest: seq<Doc>, p: Doc -> bool)
    ensures Where([d] + rest, p) == (if p(d) then [d] else []) + Where(rest, p)
  {
    assert ([d] + rest)[0] == d;
    assert ([d] + rest)[1..] == rest;
  }

  lemma ConvertAllCons(d: Doc, rest: seq<Doc>)
    ensures ConvertAll([d] + rest) == Converted(d) + ConvertAll(rest)
  {
    assert ([d] + rest)[0] == d;
    assert ([d] + rest)[1..] == rest;
  }

  /** Filtering keeps relative order: it distributes over concatenation. */
  lemma {:induction false} WhereAppend(a: seq<Doc>, b: seq<Doc>, p: Doc -> bool)
    ensures Where(a + b, p) == Where(a, p) + Where(b, p)
    decreases |a|
  {
    if |a| > 0 {
      var d, rest := a[0], a[1..];
      assert a == [d] + rest;
      assert a + b == [d] + (rest + b);
      WhereCons(d, rest + b, p);
      WhereCons(d, rest, p);
      WhereAppend(rest, b, p);
      var h := if p(d) then [d] else [];
      assert h + (Where(rest, p) + Where(b, p)) == (h + Where(rest, p)) + Where(b, p);
    } else {
      assert a + b == b;
    }
  }

  /** Conversion keeps the surviving documents in query order: it distributes over concatenation. */
  lemma {:induction false} ConvertAllAppend(a: seq<Doc>, b: seq<Doc>)
    ensures ConvertAll(a + b) == ConvertAll(a) + ConvertAll(b)
    decreases |a|
  {
    if |a| > 0 {
      var d, rest := a[0], a[1..];
      assert a == [d] + rest;
      assert a + b == [d] + (rest + b);
      ConvertAllCons(d, rest + b);
      ConvertAllCons(d, rest);
      ConvertAllAppend(rest, b);
      var h := Converted(d);
      assert h + (ConvertAll(rest) + ConvertAll(b)) == (h + ConvertAll(rest)) + ConvertAll(b);
    } else {
      assert a + b == b;
    }
  }

  /** Dropping unconvertible documents from a newest-first list leaves a newest-first list. */
  lemma {:induction false} ConvertAllNewestFirst(docs: seq<Doc>)
    requires NewestFirst(docs)
    ensures OrdersNewestFirst(ConvertAll(docs))
    decreases |docs|
  {
    if |docs| > 0 {
      var rest := ConvertAll(docs[1..]);
      ConvertAllNewestFirst(docs[1..]);
      forall o | o in rest
        ensures o.createdAt <= docs[0].data.createdAt
      {
        var d :| d in docs[1..] && Convert(d) == Some(o);
      }
    }
  }
}

=== FILE: order_tracking.dfy ===
/**
 The customer's order-tracking screen (ui/screens/OrderTrackingScreen.kt): the
 status-to-progress rule of its indicator and the choice of what the screen
 shows for the current order. The progress bar's fraction is kept as an
 integer percentage.
 */
module OrderTracking {
  import opened Wrappers
  import opened Addresses
  import opened Orders

  /** The fill of the progress bar, in percent. */
  function Progress(s: OrderStatus): (p: nat)
    ensures p <= 100
    ensures p == 0 <==> s == Canceled
    ensures p == 100 <==> s == Delivered
  {
    match s
    case Created => 20
    case Preparing => 50
    case OnTheWay => 80
    case Delivered => 100
    case Canceled => 0
  }

  /** The forward chain of the lifecycle: each status and the one the app moves it to next. */
  predicate NextInChain(s: OrderStatus, t: OrderStatus) {
    (s == Created && t == Preparing) || (s == Preparing && t == OnTheWay) || (s == OnTheWay && t == Delivered)
  }

  /** Progress rises strictly along CREATED -> PREPARING -> ON_THE_WAY -> DELIVERED. */
  lemma ProgressIncreasesAlongChain(s: OrderStatus, t: OrderStatus)
    requires NextInChain(s, t)
    ensures Progress(s) < Progress(t)
  {
  }

  /** Progress orders the four lifecycle statuses exactly as the chain does, and CANCELED sits below all. */
  lemma ProgressMinimumIsCanceled(s: OrderStatus)
    ensures Progress(Canceled) <= Progress(s)
    ensures s != Canceled ==> Progress(Canceled) < Progress(s)
  {
  }

  /** What the body of the screen shows. */
  datatype TrackingView =
    | NoActiveOrder                       // "No active order found."
    | Tracking(header: string, progress: nat, driverAt: Option<GeoPoint>)

  const NoActiveOrderText := "No active order found."
  const WaitingForDriverText := "Waiting for driver..."

  /** The header: "Order #", the first six characters of the id, and an ellipsis. */
  function OrderHeader(id: string): (h: string)
    ensures |h| == 10 + (if |id| < 6 then |id| else 6) && |h| <= 16
    ensures h[..7] == "Order #"
    ensures h[7..|h| - 3] == id[..if |id| < 6 then |id| else 6]
    ensures h[|h| - 3..] == "..."
  {
    "Order #" + Take(id, 6) + "..."
  }

  /** The screen for the current order: nothing to track, or the header, the progress and either the map or the waiting message. */
  function View(current: Option<Order>): (v: TrackingView)
    ensures v.NoActiveOrder? <==> current.None?
    ensures v.Tracking? ==> v.progress == Progress(current.value.status) && v.driverAt == current.value.driverLocation
    ensures v.Tracking? ==> v.header == OrderHeader(current.value.id)
  {
    match current
    case None => NoActiveOrder
    case Some(o) => Tracking(OrderHeader(o.id), Progress(o.status), o.driverLocation)
  }

  /** The screen's central message, if it shows one instead of the map. */
  function Message(v: TrackingView): (m: Option<string>)
    ensures v.NoActiveOrder? ==> m == Some(NoActiveOrderText)
    ensures v.Tracking? ==> (m.None? <==> v.driverAt.Some?)
    ensures v.Tracking? && v.driverAt.None? ==> m == Some(WaitingForDriverText)
  {
    match v
    case NoActiveOrder => Some(NoActiveOrderText)
    case Tracking(_, _, at) => if at.Some? then None else Some(WaitingForDriverText)
  }

  /** The map is drawn, centred on the driver, exactly when the current order carries a driver location. */
  lemma MapShownIffDriverLocated(current: Option<Order>)
    ensures var v := View(current);
      (v.Tracking? && v.driverAt.Some?) <==> (current.Some? && current.value.driverLocation.Some?)
    ensures current.Some? && current.value.driverLocation.None? ==> Message(View(current)) == Some(WaitingForDriverText)
    ensures current.None? ==> Message(View(current)) == Some(NoActiveOrderText)
  {
  }
}

=== FILE: orders.dfy ===
/**
 The order record as the view models and screens use it, and the "orders"
 collection of the document store as a sequence of documents.

 The checked-in model/Order.kt lacks several fields the code reads and writes
 (driverId, driverLocation, address); the record below is built from the uses.
 Prices are integer cents and coordinates scaled integers.

 Store writes are synchronous pure updates. A document keeps the fields the
 store holds (queries filter and sort on them) and whether the client-side
 conversion to an `Order` succeeds; a document that fails conversion is one the
 app silently drops or, in one place, throws on.
 */
module Orders {
  import opened Wrappers
  import opened Addresses

  /** The five statuses; the exhaustive `when` of OrderTrackingScreen.kt names all of them. */
  datatype OrderStatus = Created | Preparing | OnTheWay | Delivered | Canceled

  /** Kotlin's `take(n)`: the first `n` characters, or the whole string when it is shorter. */
  function Take(s: string, n: nat): (r: string)
    ensures |r| == if |s| < n then |s| else n
    ensures r <= s
  {
    if |s| < n then s else s[..n]
  }

  /** A catalogue entry, also used as an order line. */
  datatype Product = Product(id: int, name: string, priceCents: int, imageUrl: string)

  datatype Order = Order(
    id: string,
    userId: string,
    driverId: Option<string>,
    products: seq<Product>,
    totalCents: int,
    status: OrderStatus,
    createdAt: int,
    driverLocation: Option<GeoPoint>,
    address: Option<Address>)

  /** The fields no store write of the app touches after creation. */
  predicate SameContent(a: Order, b: Order) {
    && a.id == b.id
    && a.userId == b.userId
    && a.products == b.products
    && a.totalCents == b.totalCents
    && a.createdAt == b.createdAt
    && a.address == b.address
  }

  /** A document of the "orders" collection. */
  datatype Doc = Doc(id: string, data: Order, convertible: bool)

  /** The collection, in the store's own document order. */
  type Store = seq<Doc>

  /**
   Client-side conversion: the stored fields with `id` overwritten by the document
   key, or null. The repository's `toObject` and the view models' `Order.fromMap`
   are both this one conversion: `convertible` says whether a document converts.
   */
  function Convert(d: Doc): (r: Option<Order>)
    ensures r.Some? <==> d.convertible
    ensures r.Some? ==> r.value.id == d.id && SameContent(r.value.(id := d.data.id), d.data)
    ensures r.Some? ==> r.value.status == d.data.status && r.value.driverId == d.data.driverId
    ensures r.Some? ==> r.value.driverLocation == d.data.driverLocation
  {
    if d.convertible then Some(d.data.(id := d.id)) else None
  }

  /** The three field updates the app issues on an order document. */
  datatype Write =
    | AcceptBy(driver: string)          // driverId and status in one update
    | SetStatus(status: OrderStatus)
    | SetLocation(location: GeoPoint)

  /** The effect of one update on the stored fields. */
  function Apply(o: Order, w: Write): (r: Order)
    ensures SameContent(o, r)
    ensures w.AcceptBy? ==> r.driverId == Some(w.driver) && r.status == Preparing && r.driverLocation == o.driverLocation
    ensures w.SetStatus? ==> r.status == w.status && r.driverId == o.driverId && r.driverLocation == o.driverLocation
    ensures w.SetLocation? ==> r.driverLocation == Some(w.location) && r.status == o.status && r.driverId == o.driverId
  {
    match w
    case AcceptBy(d) => o.(driverId := Some(d), status := Preparing)
    case SetStatus(s) => o.(status := s)
    case SetLocation(g) => o.(driverLocation := Some(g))
  }

  /** `document(id).update(...)`: every document with that key takes the write; nothing else changes. */
  function Update(store: Store, id: string, w: Write): (r: Store)
    ensures |r| == |store|
    ensures forall k :: 0 <= k < |r| ==>
      r[k].id == store[k].id && r[k].convertible == store[k].convertible
      && r[k].data == (if store[k].id == id then Apply(store[k].data, w) else store[k].data)
    decreases |store|
  {
    if |store| == 0 then []
    else
      var d := store[0];
      var d' := if d.id == id then d.(data := Apply(d.data, w)) else d;
      [d'] + Update(store[1..], id, w)
  }

  predicate HasDoc(store: Store, id: string) {
    exists k :: 0 <= k < |store| && store[k].id == id
  }

  /** An update of a key that no document has changes nothing. */
  lemma UpdateMissing(store: Store, id: string, w: Write)
    requires !HasDoc(store, id)
    ensures Update(store, id, w) == store
  {
    var r := Update(store, id, w);
    assert forall k :: 0 <= k < |r| ==> r[k] == store[k];
  }

  /** `collection.add(order)`: appends a document under the key the store picks. */
  function Add(store: Store, key: string, o: Order): (r: Store)
    ensures |r| == |store| + 1 && r[..|store|] == store
    ensures r[|store|] == Doc(key, o, true)
  {
    store + [Doc(key, o, true)]
  }
}

=== FILE: polyline.dfy ===
/**
 Integer model of `decodePolyline` (utils/PolylineUtils.kt), the decoder for the
 Encoded Polyline Algorithm Format that the routing service returns.

 Every coordinate is sent as the zigzag-coded difference from the previous one,
 split into 5-bit groups, least significant group first; each group is offset by
 63 to make it printable and carries a continuation bit (0x20) when more groups
 follow. The decoder keeps one running latitude and one running longitude and
 emits a point after every latitude/longitude pair of varints.

 The model stops at the scaled integers: the final division by 10^precision
 (precision 5 at the only call site) is floating point and is not modelled.
 The Kotlin loop walks an index through the string; here the decoder consumes
 the remaining suffix, which is the same walk. Where Kotlin reads past the end of
 the string (an exception), the model returns None.
 */
module Polyline {
  import opened Wrappers

  /** Added to every 5-bit group to make it a printable character. */
  const Offset: int := 63
  /** The continuation bit of a group. */
  const More: int := 0x20

  /** A varint read from the front of a string, with the characters left after it. */
  datatype Read = Read(value: nat, rest: seq<char>)

  /** One decoded coordinate pair, in units of 10^-precision degrees. */
  datatype Point = Point(lat: int, lng: int)

  /** The group carried by one character: its code minus 63 (may be negative for stray input). */
  function Chunk(c: char): int {
    c as int - Offset
  }

  /** `b and 0x1f`: on a two's-complement integer this is the Euclidean remainder mod 32. */
  function Low5(b: int): (r: nat)
    ensures r < 32
  {
    b % 32
  }

  function Pow32(k: nat): (r: nat)
    ensures r > 0
  {
    if k == 0 then 1 else 32 * Pow32(k - 1)
  }

  // ---------------------------------------------------------------------------
  // The decoder as written
  // ---------------------------------------------------------------------------

  /**
   One `do { … } while (b >= 0x20)` loop: reads a varint from the front of `s`
   and returns it with the unread rest. The group read at step k is or-ed in at
   bit offset 5k; the shifted groups occupy disjoint bits, so the `or` is a sum.
   */
  function ReadVarint(s: seq<char>): (r: Option<Read>)
    ensures r.Some? ==> |r.value.rest| < |s|
    ensures |s| == 0 ==> r.None?
  {
    if |s| == 0 then None
    else
      var b := Chunk(s[0]);
      if b >= More then
        match ReadVarint(s[1..])
        case None => None
        case Some(r) => Some(Read(Low5(b) + 32 * r.value, r.rest))
      else
        Some(Read(Low5(b), s[1..]))
  }

  /** `shr 1` on a non-negative value. */
  function Shr1(x: nat): nat {
    x / 2
  }

  /** `inv()`: bitwise complement of a two's-complement integer. */
  function Inv(x: int): int {
    -x - 1
  }

  /** The zigzag sign decoding of lines 26 and 36: odd raw values are negative. */
  function UnZigZag(r: nat): (v: int)
    ensures v < 0 <==> r % 2 == 1
  {
    if r % 2 != 0 then Inv(Shr1(r)) else Shr1(r)
  }

  /**
   The decoding loop with its two accumulators: each iteration reads a latitude
   varint, then a longitude varint, adds both deltas and emits the point.
   */
  function DecodeFrom(s: seq<char>, lat: int, lng: int): (r: Option<seq<Point>>)
    ensures s == [] ==> r == Some([])
    ensures r.Some? ==> 2 * |r.value| <= |s|
    decreases |s|
  {
    if |s| == 0 then Some([])
    else
      match ReadVarint(s)
      case None => None
      case Some(rLat) =>
        match ReadVarint(rLat.rest)
        case None => None
        case Some(rLng) =>
          var lat' := lat + UnZigZag(rLat.value);
          var lng' := lng + UnZigZag(rLng.value);
          match DecodeFrom(rLng.rest, lat', lng')
          case None => None
          case Some(pts) => Some([Point(lat', lng')] + pts)
  }

  /** `decodePolyline(encoded, precision)` before the division: both accumulators start at 0. */
  function Decode(s: seq<char>): (r: Option<seq<Point>>)
    ensures r.Some? <==> WellFormed(s)
    ensures r.Some? ==> 2 * |r.value| == |Varints(s).value|
  {
    DecodeFromFactors(s, 0, 0);
    DecodeFrom(s, 0, 0)
  }

  // ---------------------------------------------------------------------------
  // Reference definitions: groups, varint streams, deltas and prefix sums
  // ---------------------------------------------------------------------------

  /** The number of leading characters whose group has the continuation bit set. */
  function StopIndex(s: seq<char>): (n: nat)
    ensures n <= |s|
    ensures forall k :: 0 <= k < n ==> Chunk(s[k]) >= More
    ensures n < |s| ==> Chunk(s[n]) < More
  {
    if |s| == 0 || Chunk(s[0]) < More then 0 else 1 + StopIndex(s[1..])
  }

  /** The value of a run of groups: the low five bits of the k-th group sit at bit offset 5k. */
  function GroupsValue(g: seq<char>): nat {
    if |g| == 0 then 0
    else GroupsValue(g[..|g| - 1]) + Low5(Chunk(g[|g| - 1])) * Pow32(|g| - 1)
  }

  /** Splits the whole string into varints; None if it ends inside one. */
  function Varints(s: seq<char>): (r: Option<seq<nat>>)
    decreases |s|
  {
    if |s| == 0 then Some([])
    else
      match ReadVarint(s)
      case None => None
      case Some(r) =>
        match Varints(r.rest)
        case None => None
        case Some(vs) => Some([r.value] + vs)
  }

  /** Input the decoder accepts: whole varints, an even number of them. */
  predicate WellFormed(s: seq<char>) {
    Varints(s).Some? && |Varints(s).value| % 2 == 0
  }

  /** Pairs up raw varints as (latitude delta, longitude delta). */
  function Deltas(vs: seq<nat>): (ds: seq<Point>)
    requires |vs| % 2 == 0
    ensures 2 * |ds| == |vs|
    ensures forall k :: 0 <= k < |ds| ==> ds[k] == Point(UnZigZag(vs[2 * k]), UnZigZag(vs[2 * k + 1]))
  {
    if |vs| == 0 then [] else [Point(UnZigZag(vs[0]), UnZigZag(vs[1]))] + Deltas(vs[2..])
  }

  /** Running sums of the deltas, starting from (lat, lng). */
  function Accumulate(lat: int, lng: int, ds: seq<Point>): (r: seq<Point>)
    ensures |r| == |ds|
    decreases |ds|
  {
    if |ds| == 0 then []
    else
      var p := Point(lat + ds[0].lat, lng + ds[0].lng);
      [p] + Accumulate(p.lat, p.lng, ds[1..])
  }

  function SumLat(ds: seq<Point>): int {
    if |ds| == 0 then 0 else ds[0].lat + SumLat(ds[1..])
  }

  function SumLng(ds: seq<Point>): int {
    if |ds| == 0 then 0 else ds[0].lng + SumLng(ds[1..])
  }

  // ---------------------------------------------------------------------------
  // The encoder (the routing service's side of the format)
  // ---------------------------------------------------------------------------

  /** Zigzag sign encoding: 0, -1, 1, -2, … map to 0, 1, 2, 3, … */
  function ZigZag(v: int): (r: nat)
    ensures UnZigZag(r) == v
  {
    if v >= 0 then 2 * v else -2 * v - 1
  }

  /** Five bits at a time, least significant first, continuation bit on all but the last group. */
  function EncodeVarint(n: nat): (r: seq<char>)
    ensures |r| > 0
    decreases n
  {
    if n < More then [(n + Offset) as char]
    else [((n % 32) + More + Offset) as char] + EncodeVarint(n / 32)
  }

  /** Encodes each point as the zigzag-coded differences from the previous point. */
  function EncodeFrom(lat: int, lng: int, pts: seq<Point>): seq<char>
    decreases |pts|
  {
    if |pts| == 0 then []
    else
      EncodeVarint(ZigZag(pts[0].lat - lat))
      + (EncodeVarint(ZigZag(pts[0].lng - lng)) + EncodeFrom(pts[0].lat, pts[0].lng, pts[1..]))
  }

  function Encode(pts: seq<Point>): seq<char> {
    EncodeFrom(0, 0, pts)
  }

  // ---------------------------------------------------------------------------
  // Properties
  // ---------------------------------------------------------------------------

  /** The empty string decodes to the empty list of points. */
  lemma DecodeEmpty()
    ensures Decode("") == Some([])
  {
  }

  /** Zigzag decoding is a bijection from naturals onto integers. */
  lemma ZigZagBijection(r: nat, v: int)
    ensures ZigZag(UnZigZag(r)) == r
    ensures UnZigZag(r) == UnZigZag(ZigZag(v)) ==> ZigZag(v) == r
  {
  }

  lemma {:induction false} GroupsValueCons(c: char, g: seq<char>)
    ensures GroupsValue([c] + g) == Low5(Chunk(c)) + 32 * GroupsValue(g)
    decreases |g|
  {
    var cg := [c] + g;
    if |g| == 0 {
      assert cg[..0] == [];
    } else {
      var init := g[..|g| - 1];
      assert cg[..|cg| - 1] == [c] + init;
      assert cg[|cg| - 1] == g[|g| - 1];
      GroupsValueCons(c, init);
      assert Pow32(|cg| - 1) == 32 * Pow32(|g| - 1);
    }
  }

  /**
   A varint is read exactly when some group without the continuation bit occurs;
   it then spans the groups up to and including that one, and its value places
   the low five bits of the k-th group at bit offset 5k.
   */
  lemma {:induction false} ReadVarintSpec(s: seq<char>)
    ensures ReadVarint(s).Some? <==> StopIndex(s) < |s|
    ensures ReadVarint(s).Some? ==>
      var n := StopIndex(s) + 1;
      ReadVarint(s).value == Read(GroupsValue(s[..n]), s[n..])
    decreases |s|
  {
    if |s| > 0 && Chunk(s[0]) >= More {
      ReadVarintSpec(s[1..]);
      if StopIndex(s) < |s| {
        var n := StopIndex(s) + 1;
        assert s[..n] == [s[0]] + s[1..][..n - 1];
        GroupsValueCons(s[0], s[1..][..n - 1]);
        assert s[1..][n - 1..] == s[n..];
      }
    } else if |s| > 0 {
      assert s[..1] == [s[0]];
      assert s[..1][..0] == [];
    }
  }

  lemma VarintsStep(s: seq<char>, v: nat, rest: seq<char>)
    requires ReadVarint(s) == Some(Read(v, rest))
    ensures Varints(s) == if Varints(rest).Some? then Some([v] + Varints(rest).value) else None
  {
  }

  lemma DecodeFromStep(s: seq<char>, lat: int, lng: int, a: nat, s1: seq<char>, b: nat, s2: seq<char>)
    requires ReadVarint(s) == Some(Read(a, s1)) && ReadVarint(s1) == Some(Read(b, s2))
    ensures var p := Point(lat + UnZigZag(a), lng + UnZigZag(b));
      DecodeFrom(s, lat, lng)
      == if DecodeFrom(s2, p.lat, p.lng).Some? then Some([p] + DecodeFrom(s2, p.lat, p.lng).value) else None
  {
  }

  /** Two varints read in a row put both numbers in front of whatever the rest splits into. */
  lemma VarintsPair(s: seq<char>, a: nat, s1: seq<char>, b: nat, s2: seq<char>)
    requires ReadVarint(s) == Some(Read(a, s1)) && ReadVarint(s1) == Some(Read(b, s2))
    ensures Varints(s) == if Varints(s2).Some? then Some([a, b] + Varints(s2).value) else None
  {
    VarintsStep(s, a, s1);
    VarintsStep(s1, b, s2);
    if Varints(s2).Some? {
      var vs := Varints(s2).value;
      assert [a] + ([b] + vs) == [a, b] + vs;
    }
  }

  /** The first pair of varints becomes the first point; the rest accumulates from there. */
  lemma AccumulatePair(lat: int, lng: int, a: nat, b: nat, vs: seq<nat>)
    requires |vs| % 2 == 0
    ensures var p := Point(lat + UnZigZag(a), lng + UnZigZag(b));
      Accumulate(lat, lng, Deltas([a, b] + vs)) == [p] + Accumulate(p.lat, p.lng, Deltas(vs))
  {
    assert ([a, b] + vs)[2..] == vs;
    var ds := Deltas([a, b] + vs);
    assert ds == [Point(UnZigZag(a), UnZigZag(b))] + Deltas(vs);
    assert ds[1..] == Deltas(vs);
  }

  /** The last two stages: pair up the varints as zigzag-decoded deltas and accumulate from (lat, lng). */
  function FromVarints(vs: Option<seq<nat>>, lat: int, lng: int): (r: Option<seq<Point>>)
    ensures r.Some? <==> vs.Some? && |vs.value| % 2 == 0
    ensures r.Some? ==> 2 * |r.value| == |vs.value|
  {
    if vs.Some? && |vs.value| % 2 == 0 then Some(Accumulate(lat, lng, Deltas(vs.value))) else None
  }

  /** The three-stage decoder: split into varints, then pair and accumulate. */
  function Staged(s: seq<char>, lat: int, lng: int): (r: Option<seq<Point>>)
    ensures r.Some? <==> WellFormed(s)
    ensures r.Some? ==> r.value == Accumulate(lat, lng, Deltas(Varints(s).value))
    ensures r.Some? ==> 2 * |r.value| == |Varints(s).value|
  {
    FromVarints(Varints(s), lat, lng)
  }

  /** A leading pair of varints becomes one leading point. */
  lemma FromVarintsPair(a: nat, b: nat, vs: Option<seq<nat>>, lat: int, lng: int)
    ensures var p := Point(lat + UnZigZag(a), lng + UnZigZag(b));
      var r := FromVarints(vs, p.lat, p.lng);
      FromVarints(if vs.Some? then Some([a, b] + vs.value) else None, lat, lng)
      == if r.Some? then Some([p] + r.value) else None
  {
    if vs.Some? && |vs.value| % 2 == 0 {
      AccumulatePair(lat, lng, a, b, vs.value);
    }
  }

  /** The staged decoder takes a leading pair of varints to one point, as the loop does. */
  lemma StagedPair(s: seq<char>, lat: int, lng: int, a: nat, s1: seq<char>, b: nat, s2: seq<char>)
    requires ReadVarint(s) == Some(Read(a, s1)) && ReadVarint(s1) == Some(Read(b, s2))
    ensures var p := Point(lat + UnZigZag(a), lng + UnZigZag(b));
      Staged(s, lat, lng)
      == if Staged(s2, p.lat, p.lng).Some? then Some([p] + Staged(s2, p.lat, p.lng).value) else None
  {
    VarintsPair(s, a, s1, b, s2);
    FromVarintsPair(a, b, Varints(s2), lat, lng);
  }

  /** A string whose first varint is its last, or is cut short after it, is rejected. */
  lemma StagedOdd(s: seq<char>, lat: int, lng: int, a: nat, s1: seq<char>)
    requires ReadVarint(s) == Some(Read(a, s1)) && (|s1| == 0 || ReadVarint(s1).None?)
    ensures Staged(s, lat, lng).None?
  {
    VarintsStep(s, a, s1);
    if |s1| == 0 {
      assert Varints(s1) == Some([]);
      assert [a] + [] == [a];
    } else {
      assert Varints(s1).None?;
    }
  }

  /**
   The decoder factors into three stages: split into varints, pair them up as
   zigzag-decoded deltas, accumulate. It succeeds exactly on well-formed input,
   and then yields one point per pair of varints.
   */
  lemma {:induction false} DecodeFromFactors(s: seq<char>, lat: int, lng: int)
    ensures DecodeFrom(s, lat, lng) == Staged(s, lat, lng)
    ensures DecodeFrom(s, lat, lng).Some? <==> WellFormed(s)
    ensures WellFormed(s) ==>
      DecodeFrom(s, lat, lng).value == Accumulate(lat, lng, Deltas(Varints(s).value))
      && 2 * |DecodeFrom(s, lat, lng).value| == |Varints(s).value|
    decreases |s|
  {
    if |s| == 0 {
      assert Varints(s) == Some([]);
    } else if ReadVarint(s).None? {
      assert Varints(s).None?;
    } else {
      var a, s1 := ReadVarint(s).value.value, ReadVarint(s).value.rest;
      if |s1| == 0 || ReadVarint(s1).None? {
        StagedOdd(s, lat, lng, a, s1);
      } else {
        var b, s2 := ReadVarint(s1).value.value, ReadVarint(s1).value.rest;
        DecodeFromFactors(s2, lat + UnZigZag(a), lng + UnZigZag(b));
        StagedPair(s, lat, lng, a, s1, b, s2);
        DecodeFromStep(s, lat, lng, a, s1, b, s2);
      }
    }
  }

  /** Each point of the output is the start plus the sum of the deltas so far; the two coordinates never mix. */
  lemma {:induction false} AccumulatePrefixSums(lat: int, lng: int, ds: seq<Point>, k: nat)
    requires k < |ds|
    ensures Accumulate(lat, lng, ds)[k] == Point(lat + SumLat(ds[..k + 1]), lng + SumLng(ds[..k + 1]))
    decreases k
  {
    if k == 0 {
      assert ds[..1] == [ds[0]];
      assert ds[..1][1..] == [];
    } else {
      var d := ds[0];
      AccumulatePrefixSums(lat + d.lat, lng + d.lng, ds[1..], k - 1);
      assert ds[..k + 1][1..] == ds[1..][..k];
    }
  }

  /** The k-th decoded point is the sum of the first k+1 latitude deltas and of the first k+1 longitude deltas. */
  lemma DecodedPointIsPrefixSum(s: seq<char>, k: nat)
    requires WellFormed(s)
    requires k < |Varints(s).value| / 2
    ensures Decode(s).Some? && 2 * |Decode(s).value| == |Varints(s).value|
    ensures var ds := Deltas(Varints(s).value);
      Decode(s).value[k] == Point(SumLat(ds[..k + 1]), SumLng(ds[..k + 1]))
  {
    DecodeFromFactors(s, 0, 0);
    AccumulatePrefixSums(0, 0, Deltas(Varints(s).value), k);
  }

  /** Reading back an encoded varint yields the number and leaves the rest untouched. */
  lemma {:induction false} VarintRoundTrip(n: nat, rest: seq<char>)
    ensures ReadVarint(EncodeVarint(n) + rest) == Some(Read(n, rest))
    decreases n
  {
    var s := EncodeVarint(n) + rest;
    if n < More {
      assert s[1..] == rest;
    } else {
      VarintRoundTrip(n / 32, rest);
      assert s[1..] == EncodeVarint(n / 32) + rest;
    }
  }

  /** A point's two encoded deltas, read back from the front, give the point itself. */
  lemma DecodePointStep(lat: int, lng: int, p: Point, tail: seq<char>)
    ensures var s := EncodeVarint(ZigZag(p.lat - lat)) + (EncodeVarint(ZigZag(p.lng - lng)) + tail);
      DecodeFrom(s, lat, lng)
      == if DecodeFrom(tail, p.lat, p.lng).Some? then Some([p] + DecodeFrom(tail, p.lat, p.lng).value) else None
  {
    var a, b := ZigZag(p.lat - lat), ZigZag(p.lng - lng);
    var lngPart := EncodeVarint(b) + tail;
    VarintRoundTrip(a, lngPart);
    VarintRoundTrip(b, tail);
    assert Point(lat + UnZigZag(a), lng + UnZigZag(b)) == p;
    DecodeFromStep(EncodeVarint(a) + lngPart, lat, lng, a, lngPart, b, tail);
  }

  /** Decoding the encoding of any point sequence, from the same start, returns that sequence. */
  lemma {:induction false} RoundTripFrom(lat: int, lng: int, pts: seq<Point>)
    ensures DecodeFrom(EncodeFrom(lat, lng, pts), lat, lng) == Some(pts)
    decreases |pts|
  {
    if |pts| > 0 {
      var p, rest := pts[0], pts[1..];
      assert pts == [p] + rest;
      EncodeStep(lat, lng, p, rest);
      DecodePointStep(lat, lng, p, EncodeFrom(p.lat, p.lng, rest));
      RoundTripFrom(p.lat, p.lng, rest);
    }
  }

  lemma RoundTrip(pts: seq<Point>)
    ensures Decode(Encode(pts)) == Some(pts)
  {
    RoundTripFrom(0, 0, pts);
  }

  /** One point of the encoder: its latitude delta, its longitude delta, then the rest. */
  lemma EncodeStep(lat: int, lng: int, p: Point, rest: seq<Point>)
    ensures EncodeFrom(lat, lng, [p] + rest)
      == EncodeVarint(ZigZag(p.lat - lat)) + (EncodeVarint(ZigZag(p.lng - lng)) + EncodeFrom(p.lat, p.lng, rest))
  {
    assert ([p] + rest)[0] == p;
    assert ([p] + rest)[1..] == rest;
  }

  lemma ExampleThirdPoint()
    ensures EncodeFrom(4070000, -12095000, [Point(4325200, -12645300)]) == "_mqNvxq`@"
  {
    EncodeStep(4070000, -12095000, Point(4325200, -12645300), []);
    assert [Point(4325200, -12645300)] + [] == [Point(4325200, -12645300)];
    assert ZigZag(255200) == 510400 && ZigZag(-550300) == 1100599;
    assert EncodeVarint(510400) == "_mqN";
    assert EncodeVarint(1100599) == "vxq`@";
  }

  lemma ExampleSecondPoint()
    ensures EncodeFrom(3850000, -12020000, [Point(4070000, -12095000), Point(4325200, -12645300)])
      == "_ulLnnqC_mqNvxq`@"
  {
    EncodeStep(3850000, -12020000, Point(4070000, -12095000), [Point(4325200, -12645300)]);
    assert [Point(4070000, -12095000)] + [Point(4325200, -12645300)]
      == [Point(4070000, -12095000), Point(4325200, -12645300)];
    ExampleThirdPoint();
    assert ZigZag(220000) == 440000 && ZigZag(-75000) == 149999;
    assert EncodeVarint(440000) == "_ulL";
    assert EncodeVarint(149999) == "nnqC";
  }

  lemma ExampleEncoding(first: Point, rest: seq<Point>)
    requires first == Point(3850000, -12020000)
    requires rest == [Point(4070000, -12095000), Point(4325200, -12645300)]
    ensures Encode([first] + rest) == "_p~iF~ps|U_ulLnnqC_mqNvxq`@"
  {
    EncodeStep(0, 0, first, rest);
    assert ZigZag(first.lat - 0) == 7700000 && ZigZag(first.lng - 0) == 24039999;
    ExampleFirstLat();
    ExampleFirstLng();
    ExampleSecondPoint();
    ExampleConcat("_p~iF", "~ps|U", "_ulLnnqC_mqNvxq`@");
  }

  lemma ExampleConcat(x: string, y: string, z: string)
    requires x == "_p~iF" && y == "~ps|U" && z == "_ulLnnqC_mqNvxq`@"
    ensures x + (y + z) == "_p~iF~ps|U_ulLnnqC_mqNvxq`@"
  {
  }

  lemma ExampleFirstLat()
    ensures EncodeVarint(7700000) == "_p~iF"
  {
  }

  lemma ExampleFirstLng()
    ensures EncodeVarint(24039999) == "~ps|U"
  {
  }

  /** The format's published example: three points at precision 5. */
  lemma PublishedExample()
    ensures Decode("_p~iF~ps|U_ulLnnqC_mqNvxq`@")
      == Some([Point(3850000, -12020000), Point(4070000, -12095000), Point(4325200, -12645300)])
  {
    var rest := [Point(4070000, -12095000), Point(4325200, -12645300)];
    ExampleEncoding(Point(3850000, -12020000), rest);
    RoundTrip([Point(3850000, -12020000)] + rest);
    assert [Point(3850000, -12020000)] + rest
      == [Point(3850000, -12020000), Point(4070000, -12095000), Point(4325200, -12645300)];
  }
}

=== FILE: router.dfy ===
/**
 The role-based router: the navigation effect of MainActivity.kt, which maps
 the authentication state to a start route and skips navigating to the route
 already shown, and the older duplicate of the same rule in
 ui/screens/RoutingScreen.kt, which navigates every time it runs.

 The navigation back stack is a sequence of route names, the current
 destination last.
 */
module Router {
  import opened Wrappers
  import opened AuthViewModel

  const LoadingRoute := "loading"
  const LoginRoute := "login"
  const DriverMainRoute := "driver_main"
  const ClientMainRoute := "client_main"
  const RoleSelectionRoute := "role_selection"

  /** The role a delivery driver's profile holds. */
  const DriverRole := "livreur"

  /** The four routes the router sends anyone to. */
  predicate IsStartRoute(route: string) {
    route == LoginRoute || route == DriverMainRoute || route == ClientMainRoute || route == RoleSelectionRoute
  }

  /** MainActivity's destination: none while the role is loading; otherwise decided by user, then role. */
  function Destination(st: LoginUiState): (d: Option<string>)
    ensures d.None? <==> st.isRoleLoading
    ensures d.Some? ==> IsStartRoute(d.value)
    ensures d.Some? ==> (d.value == LoginRoute <==> st.user.None?)
    ensures d.Some? ==> (d.value == DriverMainRoute <==> st.user.Some? && st.role == Some(DriverRole))
    ensures d.Some? ==> (d.value == ClientMainRoute <==> st.user.Some? && st.role == Some(ClientRole))
    ensures d.Some? ==> (d.value == RoleSelectionRoute <==>
      st.user.Some? && st.role != Some(DriverRole) && st.role != Some(ClientRole))
  {
    if st.isRoleLoading then None
    else if st.user.None? then Some(LoginRoute)
    else if st.role == Some(DriverRole) then Some(DriverMainRoute)
    else if st.role == Some(ClientRole) then Some(ClientMainRoute)
    else Some(RoleSelectionRoute)
  }

  /** `currentDestination?.route`: the top of the back stack, if any. */
  function CurrentRoute(stack: seq<string>): Option<string> {
    if |stack| == 0 then None else Some(stack[|stack| - 1])
  }

  /**
   The router effect of MainActivity: navigates to the destination, clearing the
   whole back stack, unless the role is loading or the destination is already shown.
   */
  function Route(stack: seq<string>, st: LoginUiState): (r: seq<string>)
    ensures st.isRoleLoading ==> r == stack
    ensures !st.isRoleLoading ==> CurrentRoute(r) == Destination(st)
    ensures r != stack ==> r == [Destination(st).value]
    ensures CurrentRoute(stack) == Destination(st) ==> r == stack
  {
    match Destination(st)
    case None => stack
    case Some(d) => if CurrentRoute(stack) == Some(d) then stack else [d]
  }

  /** Running the router again on an unchanged state does nothing more. */
  lemma RouteIdempotent(stack: seq<string>, st: LoginUiState)
    ensures Route(Route(stack, st), st) == Route(stack, st)
  {
  }

  /** After sign-out the app lands on the login screen, whatever the role held before. */
  lemma SignOutRoutesToLogin(stack: seq<string>, st: LoginUiState)
    ensures Route(stack, OnAuthStateChanged(st, None).state) == (if CurrentRoute(stack) == Some(LoginRoute) then stack else [LoginRoute])
  {
  }

  /** A fresh sign-in waits on the role: nothing moves until the role has arrived. */
  lemma SignInWaitsForRole(stack: seq<string>, st: LoginUiState, u: User, fetched: Result<Option<string>>)
    ensures Route(stack, OnAuthStateChanged(st, Some(u)).state) == stack
    ensures var s := OnRoleFetched(OnAuthStateChanged(st, Some(u)).state, fetched);
      CurrentRoute(Route(stack, s)).Some? && CurrentRoute(Route(stack, s)).value != LoginRoute
  {
  }

  /** RoutingScreen's own copy of the destination rule. */
  function RoutingScreenDestination(st: LoginUiState): (d: Option<string>)
    ensures d.None? <==> st.isRoleLoading
    ensures d.Some? ==> IsStartRoute(d.value)
  {
    if st.isRoleLoading then None
    else if st.user == None then Some(LoginRoute)
    else if st.role == Some(DriverRole) then Some(DriverMainRoute)
    else if st.role == Some(ClientRole) then Some(ClientMainRoute)
    else Some(RoleSelectionRoute)
  }

  /** The navigation RoutingScreen requests each time it runs: always, once the role is known. */
  function RoutingScreenRequest(st: LoginUiState): (req: Option<string>)
    ensures req.Some? <==> !st.isRoleLoading
  {
    RoutingScreenDestination(st)
  }

  /** MainActivity's navigation request: only when the role is known and the destination is not already shown. */
  function MainActivityRequest(stack: seq<string>, st: LoginUiState): (req: Option<string>)
    ensures req.Some? <==> !st.isRoleLoading && CurrentRoute(stack) != Destination(st)
    ensures req.Some? ==> Route(stack, st) == [req.value]
  {
    match Destination(st)
    case None => None
    case Some(d) => if CurrentRoute(stack) == Some(d) then None else Some(d)
  }

  /**
   The two routers pick the same destination for every authentication state;
   they differ only in that RoutingScreen asks again for the route already shown.
   */
  lemma RoutersAgree(stack: seq<string>, st: LoginUiState)
    ensures RoutingScreenDestination(st) == Destination(st)
    ensures MainActivityRequest(stack, st).Some? ==> RoutingScreenRequest(st) == MainActivityRequest(stack, st)
    ensures RoutingScreenRequest(st).Some? && MainActivityRequest(stack, st).None? ==>
      CurrentRoute(stack) == RoutingScreenRequest(st)
  {
  }
}

=== FILE: wrappers.dfy ===
/** Failure-compatible wrappers shared by every module of the model. */
module Wrappers {

  /** A value that may be absent: Kotlin's nullable `T?`. */
  datatype Option<+T> = None | Some(value: T) {

    /** The wrapped value, or `default` when absent (Kotlin's `?:`). */
    function GetOr(default: T): T {
      match this
      case Some(v) => v
      case None => default
    }
  }

  /** The outcome of a call that may throw: the value, or the exception's message (itself nullable). */
  datatype Result<+R> = Success(value: R) | Failure(message: Option<string>)
}
